=== FILE: README.md ===
# PicOCFly attempt orchestrator — a Dafny model

PicOCFly is RP2040 firmware that glitches a console's boot ROM. It checks three
voltage rails, decides whether the payload has to be rewritten, and then searches
for a working glitch timing. The search has three tiers: saved records, random
offsets, and saved records again after a rewrite. It ends by showing a status
code on one RGB LED.

This project models that control policy, plus the small pure helpers it relies on:

- `Signal` is the status-code blink encoder of `halt_with_error`. A code
  `(err, bits)` becomes a sequence of `SetPixel(colour)` and `Sleep(ms)` events.
  `Decode` reads a code back from the flashes an observer would see.
- `SelfTest` covers two things:
  - the acceptance window of `safe_test_voltage`, stated over the reals;
  - the `check_mask` polling loop of `self_test`, with its deadline replaced by a
    budget of polls, and the halt code it picks.
- `Orchestrator` is `main` after the board prologue, written as a pure function of
  its collaborators' answers (`Oracles`). It returns the calls made in order
  (`Call`) and the code the run halts with.
- `Pixel` is the RGB-to-GRB word packing of `put_pixel`.
- `Pins` is the pin plan of `finish_pins_except_leds`, over a map from pin number
  to pad state. It has a loop-based method and a functional definition, and the
  two agree.
- The `…Properties` modules hold the lemmas that relate the operations to
  independent readings of their results:
  - decoding the blink;
  - the flashes and total duration of a blink;
  - the rails the self-test reads;
  - the glitch calls in a trace;
  - the persisted writes in a trace.

The collaborators of `main` are oracles, because their code is not part of this
model:

- `glitch_try_offset`: its answer is a function of the call ordinal, the offset,
  the width and the tries, so it may keep any hidden state;
- `find_best_record`: a finite list of answers per ranking pass;
- `prepare_random_array`: the array contents per round;
- `count_fuses`, `boot_slot`, `fast_check`, `is_configured`,
  `detect_by_pull`, `watchdog_caused_reboot` and `boot_try`.

## Model

| member | source | states |
|---|---|---|
| Pixel.ToGrb | misc.c:117-120 | the red and green bytes change places, blue stays, and the top byte of the argument is dropped, so the word is below 2^24 |
| Pixel.FifoWord | misc.c:134 | the FIFO word carries the GRB colour in its top three bytes and zero in the low byte |
| Pixel.PackColour | misc.c:117-120 | a colour packed as 0xRRGGBB, with any top byte, comes out as its GRB word |
| Pixel.SwapInvolution | misc.c:117-120 | repacking twice gives back the 24-bit colour |
| Signal.TimingConstants | misc.c:13-21 | short pulse 100, short pause 200, long pulse 400, long pause 50, gap 1500, lead-in 500, three repeats; pause + pulse + pause is the 500 ms base unit for both kinds |
| Signal.Blink | misc.c:69-73 | a code of any width but one, and only such a code, opens with the LED off and the 500 ms lead-in |
| SignalProperties.BlinkFlashes | misc.c:75-96 | the flashes shown are the code's bits, most significant first, with each set bit a long red flash, each clear bit a short red flash, and the clear bit of a one-bit code a 200 ms white flash; they repeat three times, or once for a one-bit code |
| SignalProperties.DecodeBlink | misc.c:61-100 | reading the flashes back recovers the width and the value reduced to that many bits |
| SignalProperties.BlinkInjective | misc.c:61-100 | two codes whose values fit their widths blink identically only if they are equal |
| SignalProperties.BlinkDuration | misc.c:69-96 | the total waiting time depends on the code alone: lead-in, plus one base unit per pulse per repeat, plus two gaps, minus the closing pause the final pulse omits; a one-bit code takes 2000 ms for a one and 2100 ms for a zero |
| SignalProperties.OneShot | misc.c:69-95 | a one-bit code has no lead-in and is shown once; because its only repeat is not the last, its closing pause and the 1500 ms gap are still emitted |
| SignalProperties.MultiBitShape | misc.c:69-90 | a code of two or more bits is the lead-in and three repeats, with a gap after every repeat but the last, and it ends on the switch-off of its final pulse with no closing pause |
| SignalProperties.BlinkBlanked | misc.c:83-85 | each lit colour is held for exactly one wait and then switched off |
| SignalProperties.BlinkPaused | misc.c:78-90 | each flash is preceded by a pause and, unless it ends a code shown three times, followed after its switch-off by the same pause: 50 ms around a long flash, 200 ms around a short or white one |
| SignalProperties.CommandRailCode | main.c:70-71 | the command-rail failure code shows a short then a long red flash, three times |
| SignalProperties.ExhaustedCode | main.c:200-201 | the exhaustion code shows three long red flashes, three times |
| Pins.Plan | misc.c:41-53 | every pin 0..29 except the indicator's two pins loses input and output and has no pull-up; it is pulled down exactly when it is one of the four glitch-trigger pins; all other pads are unchanged |
| Pins.FinishPinsExceptLeds | misc.c:41-53 | the loop over pins 0..29 leaves the same pads as the plan |
| Pins.PlanIdempotent | misc.c:41-53 | running the plan on already quiesced pads changes nothing |
| SelfTest.AcceptWindow | main.c:41-50 | a raw 12-bit sample is accepted at 1.8 V ± 0.2 V, both ends inclusive, exactly when it lies in 1986..2482 |
| SelfTest.SafeTestVoltage | main.c:41-50 | no contract of its own: the window, over the reals, is stated in raw counts by `SelfTest.AcceptWindow` |
| SelfTest.Run | main.c:53-74 | no contract of its own: `SelfTestProperties.RunOutcome` states which code it halts with, and `SelfTestProperties.LoopReadings` which rails it reads |
| SelfTest.Loop | main.c:57-66 | the mask only gains bits, and only rail bits; the loop makes at most one pass per unit of budget and stops early only when all three rails are accepted |
| SelfTest.Verdict | main.c:68-73 | the code is `(i, 2)` for the lowest rail `i` whose bit is clear, and there is no code exactly when all three bits are set |
| SelfTestProperties.PollOnceEffect | main.c:60-65 | one pass reads the rails whose bits are clear, in the order reset, command, data; it sets the bits of the rails it accepts and changes no other bit |
| SelfTestProperties.LoopReadings | main.c:59-66 | each rail is read exactly as many times as there are passes up to and including the first that accepts it, or the whole budget if none does |
| SelfTestProperties.LoopSchedule | main.c:59-66 | the reads come pass by pass: pass k reads, in the order reset, command, data, exactly the rails that no earlier pass accepted, and a pass is made while the budget lasts and some rail is still unaccepted |
| SelfTestProperties.LoopPasses | main.c:59 | the loop makes as many passes as its slowest rail needs |
| SelfTestProperties.LoopPassed | main.c:59-66 | a rail's bit ends up set exactly when some pass within the budget accepted that rail |
| SelfTestProperties.RunOutcome | main.c:53-74 | the self-test halts with `(i, 2)` for the first rail, in index order, that no pass accepted, and returns only when every rail passed |
| OrchestratorProperties.FirstBootGate | main.c:104-106 | the run makes no call at all, and halts with `(1, 1)`, exactly when the reboot came from the watchdog and `boot_try` is zero |
| OrchestratorProperties.SelfTestFailure | main.c:109-114 | a failed self-test halts with that test's code after the button check, the green LED and the rail reads, with no call after them |
| OrchestratorProperties.RewriteDecision | main.c:116-125 | before the first record query, the payload is written exactly when the fast check failed, the button forced it, or the eMMC is unconfigured; `is_configured` is asked exactly when the button was not pressed |
| OrchestratorProperties.RecordPassOffsets | main.c:141-150 | a first-tier pass alternates record queries with two-try glitch calls on the store's answers, in order; if nothing glitches, it ends on the query that answered -1 |
| OrchestratorProperties.RandomRoundOffsets | main.c:157-164 | a random round tries the array's entries in order, at most once each, and tries all of them when none glitches |
| OrchestratorProperties.TiersShape | main.c:138-180 | Tier A starts with a query and makes only queries and two-try glitch calls; Tier B runs only if A failed, refills the random array once or twice (exactly twice when nothing glitched), and makes three-try glitch calls; Tier C runs only if both failed, follows a payload rewrite, makes at most three queries and two-try glitch calls, and tries the answers of its ranking pass in order |
| OrchestratorProperties.TierARanks | main.c:140-151 | Tier A is at most two ranking passes, pass 0 and then pass 1 from a fresh ranking, each trying the store's answers in order; pass 1 runs only after pass 0 ended on a -1 answer, and when nothing glitched both passes ended on -1 |
| OrchestratorProperties.TierBRounds | main.c:154-166 | Tier B is a refill and the entries of round 0, then, only after every entry of round 0 failed, a refill and the entries of round 1; each round tries its array's entries in order, and both rounds try every entry when nothing glitched |
| OrchestratorProperties.TierCOffsets | main.c:172-179 | Tier C alternates queries and two-try glitch calls on the answers of one ranking pass, in order, never tries -1, makes at most three queries, and when nothing glitched it ends on a -1 answer or after its third query |
| OrchestratorProperties.TiersCalls | main.c:138-180 | the search starts with a record query and makes only the calls of its tiers |
| OrchestratorProperties.TiersConsistent | main.c:134-180 | across all three tiers, the search state agrees with its glitch calls: call count, current width, width chaining, and which offset hit |
| OrchestratorProperties.WidthThreading | main.c:134-178 | the first glitch call receives width 140, and every later call receives exactly the width the previous call left, across tier boundaries |
| OrchestratorProperties.FinishOutcome | main.c:182-201 | after a search consistent with its glitch calls, every glitch call but the last failed, and the run halts with `(0, 1)` exactly when the last one succeeded |
| OrchestratorProperties.SuccessIsLastGlitch | main.c:140-201 | over a whole run, the halt code is `(0, 1)` exactly when the last glitch call succeeded, and every earlier glitch call failed |
| OrchestratorProperties.PersistOnSuccess | main.c:182-197 | a fuse is burnt exactly once when the run succeeded and the fuse count's parity differs from the boot slot, and never otherwise; a boot record is added only as the very last call of a successful run, with the offset of the glitch that succeeded |
| OrchestratorProperties.RunFuses | main.c:191-195 | a run burns the fuse at most once: exactly once when it succeeded and the fuse count's parity differs from the boot slot, never otherwise |
| OrchestratorProperties.HaltCodes | main.c:104-201 | the run halts with one of `(1,1)`, `(0,2)`, `(1,2)`, `(2,2)`, `(0,1)`, `(7,3)`, and with `(7,3)` exactly when it searched and no glitch call succeeded |
| Orchestrator.TierA | main.c:140-151 | no contract of its own: `OrchestratorProperties.TierARanks` and `OrchestratorProperties.TiersShape` state its passes and calls |
| Orchestrator.TierB | main.c:154-166 | no contract of its own: `OrchestratorProperties.TierBRounds` and `OrchestratorProperties.TiersShape` state its rounds and calls |
| Orchestrator.TierC | main.c:168-180 | no contract of its own: `OrchestratorProperties.TierCOffsets` and `OrchestratorProperties.TiersShape` state its queries and calls |
| Orchestrator.Tiers | main.c:138-180 | no contract of its own: `OrchestratorProperties.TiersShape`, `OrchestratorProperties.TiersCalls` and `OrchestratorProperties.TiersConsistent` state the search it runs |
| Orchestrator.Success | main.c:182-197 | no contract of its own: `OrchestratorProperties.PersistOnSuccess` states the fuse and boot-record writes it adds |
| Orchestrator.Finish | main.c:182-201 | no contract of its own: `OrchestratorProperties.FinishOutcome` states its halt code |
| Orchestrator.Main | main.c:104-201 | no contract of its own: `OrchestratorProperties.FirstBootGate`, `OrchestratorProperties.SelfTestFailure`, `OrchestratorProperties.RewriteDecision`, `OrchestratorProperties.SuccessIsLastGlitch`, `OrchestratorProperties.PersistOnSuccess` and `OrchestratorProperties.HaltCodes` state what a run does |

## Left out

- The board prologue of `main` (main.c:80-102): stopping the watchdog,
  `detect_board`, `init_system`, `init_fuses`, `upload_pio` and the tiny-board LED
  reset. These are hardware set-up with no decision in them.
- The PIO instruction patch for Mariko units (main.c:128-131). It is a raw
  instruction-memory write and does not affect the policy.
- `zzz`, the register pokes of `gpio_enable_input_output` and
  `gpio_disable_input_output`, and the clock and regulator calls inside
  `halt_with_error`. These are hardware effects. That `halt_with_error` never
  returns is modelled by ending the trace at the halt.
- `finish_pins_leds` and `reset_cpu`. These are hardware effects only.
- The PIO and WS2812 driving inside `put_pixel`, the power-pin enable, and the
  Pico's single-colour LED path (misc.c:107-115). Only the word handed to the
  state machine is modelled.
- Time. The self-test deadline is a budget of polls: the loop may run once per
  element of `polls`. Every `sleep_*` of `halt_with_error` is a `Sleep` event, and
  the success-path delays are `Delay` calls in microseconds.
- Floating point. `safe_test_voltage` is stated over the reals, so the IEEE-754
  rounding of `result * 3.3f / 4096` at the ends of the window is not modelled.
- The global `was_self_reset` that `main` sets to `force_button || !is_configured(…)`
  (main.c:120). `main` reads it back only in the rewrite decision (main.c:123),
  which `NeedsRewrite` models. The stored value, visible to code outside this
  model, is not part of the outcome.
- The collaborators `find_best_record`, `glitch_try_offset`,
  `prepare_random_array`, `write_payload`, `init_config`, `fast_check`,
  `is_configured`, `wait_for_boot`, `detect_by_pull`, `count_fuses`, `burn_fuse`
  and `add_boot_record`. Their code is not part of this model. Each one is an
  oracle answer or an entry in the call trace.
- Signal.Blink: requires `bits <= 32`, because the C shift `1 << (bits - i - 1)`
  is undefined for shift counts of 32 or more.
- OrchestratorProperties.TiersShape: states the call classes and counts of each
  tier and the pass-2 answers of Tier C, but not which offsets Tiers A and B try.
  Those are stated by OrchestratorProperties.TierARanks and
  OrchestratorProperties.TierBRounds about the same `TierA(o, 0, _)` and
  `TierB(o, 0, _)` that `Tiers` runs.

## Notes on the code

- **Tier C.** The last tier sets `max_weight = -1` once, then makes at most three
  `find_best_record` queries of that single ranking (main.c:173-179). It stops
  early at a -1 answer or on success. `TierC` models it as at most three queries of
  ranking pass 2.
- **One-bit codes.** The repeat loop breaks after its first repeat when
  `bits == 1` (misc.c:94-95). That repeat has `j = 0`, which is not
  `CODE_REPEATS - 1`. So the closing pause and the 1500 ms gap are still emitted
  after the single pulse (misc.c:87-90). `SignalProperties.OneShot` states the
  resulting six events.

=== FILE: options.dfy ===
/** An optional value: the offset that glitched, if any, and the halt code the
    self-test stops with, if any. */
module Options {

  datatype Option<+T> = None | Some(value: T)
}

=== FILE: orchestrator.dfy ===
/** The control flow of `main` (main.c) after the board prologue: the first-boot gate,
    the rail self-test, the payload rewrite decision, the three-tier glitch search and
    the success and exhaustion paths.

    Every collaborator whose code is not part of this model is an oracle in `Oracles`;
    the run is a pure function of them, returning the calls made in order and the
    status code the firmware halts with. */
module Orchestrator {

  import opened Options
  import opened Pixel
  import opened Signal
  import opened SelfTest

  /** The pulse width the search starts from. */
  const InitialWidth: int := 140
  /** The argument of `wait_for_boot`. */
  const BootWaitUs: nat := 2490
  /** Tries per offset for offsets taken from saved records (first and last tier). */
  const RecordTries: nat := 2
  /** Tries per offset for random offsets (middle tier). */
  const RandomTries: nat := 3
  /** Passes over the saved records in the first tier. */
  const RecordPasses: nat := 2
  /** Rounds of random offsets in the middle tier. */
  const RandomRounds: nat := 2
  /** Record queries allowed in the last tier. */
  const LastQueries: nat := 3

  /** What one `glitch_try_offset` call reports: whether the glitch took, and the
      width it leaves in `width`. */
  datatype Attempt = Attempt(ok: bool, width: int)

  /** The arguments of one `glitch_try_offset` call. */
  datatype Shot = Shot(offset: int, width: int, tries: nat)

  /** The answers of the collaborators.
      - `watchdogReboot`, `bootTry`: `watchdog_caused_reboot()` and `boot_try`;
      - `forceButton`: `detect_by_pull(1, 0, 1)`;
      - `polls`: the rail samples of each pass of the self-test within its deadline;
      - `fastCheck`, `configured`: `fast_check()` and `is_configured(...)`;
      - `records(p)`: the offsets `find_best_record` returns in query pass `p`, in
        order (passes 0 and 1 are the first tier, pass 2 the last); once the list is
        used up, or at an entry of -1, the query answers -1;
      - `offsetCount`, `randomOffset(z, y)`: `OFFSET_CNT` and entry `y` of the array
        `prepare_random_array` fills in round `z`;
      - `glitch(k, offset, width, tries)`: the outcome of the `k`-th glitch call;
      - `fuseCount`, `bootSlot`: `count_fuses()` and `boot_slot`. */
  datatype Oracles = Oracles(
    watchdogReboot: bool,
    bootTry: int,
    forceButton: bool,
    polls: seq<Samples>,
    fastCheck: bool,
    configured: bool,
    records: nat -> seq<int>,
    offsetCount: nat,
    randomOffset: (nat, nat) -> int,
    glitch: (nat, int, int, nat) -> Attempt,
    fuseCount: nat,
    bootSlot: int)

  /** The calls `main` makes to its collaborators and the indicator, in order. */
  datatype Call =
    | DetectButton
    | SetLed(colour: bv32)
    | ReadRail(rail: Rail)
    | WaitForBoot(us: nat)
    | FastCheck
    | IsConfigured
    | WritePayload
    | InitConfig
    | FindRecord
    | PrepareRandom
    | Glitch(shot: Shot)
    | Delay(us: nat)
    | CountFuses
    | BurnFuse
    | AddRecord(offset: int)

  /** A whole run: the calls made and the code `halt_with_error` is called with. */
  datatype Outcome = Outcome(trace: seq<Call>, halt: Code)

  /** The state threaded through the search: the calls so far, the current width,
      the number of glitch calls made, and the offset that glitched, if any. */
  datatype Search = Search(trace: seq<Call>, width: int, n: nat, hit: Option<int>)

  // ---------------------------------------------------------------------------
  // The search

  /** The answer of query `q` of record pass `pass`. */
  function Query(o: Oracles, pass: nat, q: nat): int
  {
    if q < |o.records(pass)| then o.records(pass)[q] else -1
  }

  /** One `glitch_try_offset(offset, &width, tries)`. */
  function Try(o: Oracles, s: Search, offset: int, tries: nat): Search
  {
    var a := o.glitch(s.n, offset, s.width, tries);
    Search(s.trace + [Glitch(Shot(offset, s.width, tries))], a.width, s.n + 1,
           if a.ok then Some(offset) else None)
  }

  /** The `while (1)` of one first-tier pass, from query `q`: query, stop at -1,
      try the offset, stop on success. */
  function RecordPass(o: Oracles, pass: nat, q: nat, s: Search): Search
    decreases |o.records(pass)| - q
  {
    var s1 := s.(trace := s.trace + [FindRecord]);
    var offset := Query(o, pass, q);
    if offset == -1 then s1
    else
      var s2 := Try(o, s1, offset, RecordTries);
      if s2.hit.Some? then s2 else RecordPass(o, pass, q + 1, s2)
  }

  /** The first tier from pass `y`: up to `RecordPasses` passes over the saved
      records, each restarting the store's ranking, while nothing has glitched. */
  function TierA(o: Oracles, y: nat, s: Search): Search
    decreases RecordPasses - y
  {
    if y >= RecordPasses then s
    else
      var s1 := RecordPass(o, y, 0, s);
      if s1.hit.Some? then s1 else TierA(o, y + 1, s1)
  }

  /** Entries `y` onward of the random array of round `z`, stopping on success. */
  function RandomRound(o: Oracles, z: nat, y: nat, s: Search): Search
    decreases o.offsetCount - y
  {
    if y >= o.offsetCount then s
    else
      var s1 := Try(o, s, o.randomOffset(z, y), RandomTries);
      if s1.hit.Some? then s1 else RandomRound(o, z, y + 1, s1)
  }

  /** The middle tier from round `z`: refill the random array, then try it. */
  function TierB(o: Oracles, z: nat, s: Search): Search
    decreases RandomRounds - z
  {
    if z >= RandomRounds then s
    else
      var s1 := RandomRound(o, z, 0, s.(trace := s.trace + [PrepareRandom]));
      if s1.hit.Some? then s1 else TierB(o, z + 1, s1)
  }

  /** The last tier from query `q`: at most `LastQueries` queries of a single
      ranking pass, stopping at -1 or on success. */
  function TierC(o: Oracles, q: nat, s: Search): Search
    decreases LastQueries - q
  {
    if q >= LastQueries then s
    else
      var s1 := s.(trace := s.trace + [FindRecord]);
      var offset := Query(o, 2, q);
      if offset == -1 then s1
      else
        var s2 := Try(o, s1, offset, RecordTries);
        if s2.hit.Some? then s2 else TierC(o, q + 1, s2)
  }

  /** The calls of `rewrite_payload`. */
  const RewriteCalls: seq<Call> := [SetLed(PixWhi), WritePayload, SetLed(PixGre), InitConfig]

  /** The three tiers in order; a later tier runs only when the earlier ones failed,
      and the last one is preceded by a payload rewrite. */
  function Tiers(o: Oracles, s: Search): Search
  {
    var a := TierA(o, 0, s);
    if a.hit.Some? then a
    else
      var b := TierB(o, 0, a);
      if b.hit.Some? then b
      else TierC(o, 0, b.(trace := b.trace + RewriteCalls))
  }

  // ---------------------------------------------------------------------------
  // The run

  /** The condition under which `main` rewrites the payload before searching. */
  predicate NeedsRewrite(o: Oracles)
  {
    !o.fastCheck || o.forceButton || !o.configured
  }

  /** The calls of the rail self-test: one read per rail per pass that polls it. */
  function RailReads(readings: seq<Rail>): (t: seq<Call>)
    ensures |t| == |readings|
    ensures forall i | 0 <= i < |t| :: t[i] == ReadRail(readings[i])
  {
    seq(|readings|, i requires 0 <= i < |readings| => ReadRail(readings[i]))
  }

  /** The calls up to the end of the self-test. */
  function Opening(o: Oracles): seq<Call>
  {
    [DetectButton, SetLed(PixGre)] + RailReads(Loop(0, o.polls).readings)
  }

  /** The calls between a passed self-test and the search. */
  function Preparation(o: Oracles): seq<Call>
  {
    [WaitForBoot(BootWaitUs), FastCheck]
    + (if o.forceButton then [] else [IsConfigured])
    + (if NeedsRewrite(o) then RewriteCalls else [])
  }

  /** The calls after a successful glitch at `offset`. */
  function Success(o: Oracles, offset: int): seq<Call>
  {
    [Delay(100), SetLed(Off), Delay(50000), SetLed(PixWhi), Delay(200000), CountFuses]
    + (if o.fuseCount % 2 != o.bootSlot then [BurnFuse] else [])
    + [AddRecord(offset)]
  }

  /** The search as `main` starts it: after the self-test and the preparation, at
      the initial width, with no glitch call made yet. */
  function Start(o: Oracles): Search
  {
    Search(Opening(o) + Preparation(o), InitialWidth, 0, None)
  }

  /** The end of the run after the search `s`: the success calls and `(0, 1)` if it
      glitched, `(7, 3)` otherwise. */
  function Finish(o: Oracles, s: Search): Outcome
  {
    match s.hit
    case Some(offset) => Outcome(s.trace + Success(o, offset), Code(0, 1))
    case None => Outcome(s.trace, Code(7, 3))
  }

  /** `main`: the calls it makes and the code it halts with. */
  function Main(o: Oracles): Outcome
  {
    if o.watchdogReboot && o.bootTry == 0 then Outcome([], Code(1, 1))
    else
      match Verdict(Loop(0, o.polls).mask)
      case Some(c) => Outcome(Opening(o), c)
      case None => Finish(o, Tiers(o, Start(o)))
  }
}

=== FILE: orchestrator_properties.dfy ===
/** Properties of `main`'s control policy: the first-boot gate, the rewrite decision,
    the order and bounds of the three search tiers, the threading of the glitch width
    through every attempt, and the writes to persisted state on the success path only. */
module OrchestratorProperties {

  import opened Options
  import opened Pixel
  import opened Signal
  import opened SelfTest
  import opened Orchestrator

  // ---------------------------------------------------------------------------
  // Reading a trace

  /** The arguments of the glitch calls of a trace, in order. */
  function Shots(t: seq<Call>): seq<Shot>
  {
    if |t| == 0 then []
    else (if t[0].Glitch? then [t[0].shot] else []) + Shots(t[1..])
  }

  /** The number of calls equal to `c` at positions `k` onward. */
  function Occurrences(t: seq<Call>, k: nat, c: Call): nat
    decreases |t| - k
  {
    if k >= |t| then 0 else (if t[k] == c then 1 else 0) + Occurrences(t, k + 1, c)
  }

  /** What the collaborator answers to glitch call `k` of `g`. */
  function Answer(o: Oracles, g: seq<Shot>, k: nat): Attempt
    requires k < |g|
  {
    o.glitch(k, g[k].offset, g[k].width, g[k].tries)
  }

  /** The width left after the glitch calls `g`: the initial width if there were none. */
  function WidthAfter(o: Oracles, g: seq<Shot>): int
  {
    if |g| == 0 then InitialWidth else Answer(o, g, |g| - 1).width
  }

  /** Every glitch call receives the width the previous one left, the first the
      initial width. */
  predicate Threaded(o: Oracles, g: seq<Shot>)
  {
    && (|g| > 0 ==> g[0].width == InitialWidth)
    && forall k | 0 < k < |g| :: g[k].width == Answer(o, g, k - 1).width
  }

  /** Every glitch call but the last failed. */
  predicate Missed(o: Oracles, g: seq<Shot>)
  {
    forall k | 0 <= k < |g| - 1 :: !Answer(o, g, k).ok
  }

  predicate Succeeded(o: Oracles, g: seq<Shot>)
  {
    |g| > 0 && Answer(o, g, |g| - 1).ok
  }

  /** The glitch calls `g` form a run of the search: each received the width the
      previous one left, the first the initial width, and each but the last failed. */
  predicate Chained(o: Oracles, g: seq<Shot>)
    decreases |g|
  {
    |g| == 0 ||
    var p := g[..|g| - 1];
    Chained(o, p) && g[|g| - 1].width == WidthAfter(o, p) && !Succeeded(o, p)
  }

  /** The search state agrees with the glitch calls of its trace. */
  predicate Consistent(o: Oracles, s: Search)
  {
    var g := Shots(s.trace);
    && s.n == |g|
    && s.width == WidthAfter(o, g)
    && Chained(o, g)
    && (s.hit.Some? <==> Succeeded(o, g))
    && (s.hit.Some? ==> s.hit.value == g[|g| - 1].offset)
  }

  /** A chain of glitch calls threads the width and fails at every call but the last. */
  lemma {:induction false} ChainedMeans(o: Oracles, g: seq<Shot>)
    requires Chained(o, g)
    ensures Threaded(o, g) && Missed(o, g)
    decreases |g|
  {
    if |g| > 0 {
      var p := g[..|g| - 1];
      ChainedMeans(o, p);
      ExtendChain(o, p, g);
    }
  }

  /** Appending a call that receives the width the chain left, to a chain whose
      calls all failed, keeps the width threaded and all but the last call failed. */
  lemma ExtendChain(o: Oracles, p: seq<Shot>, g: seq<Shot>)
    requires |g| > 0 && p == g[..|g| - 1]
    requires Threaded(o, p) && Missed(o, p) && !Succeeded(o, p)
    requires g[|g| - 1].width == WidthAfter(o, p)
    ensures Threaded(o, g) && Missed(o, g)
  {
    assert forall k | 0 <= k < |p| :: p[k] == g[k];
    assert forall k | 0 <= k < |p| :: Answer(o, p, k) == Answer(o, g, k);
  }

  lemma {:induction false} ShotsAppend(a: seq<Call>, b: seq<Call>)
    ensures Shots(a + b) == Shots(a) + Shots(b)
    decreases |a|
  {
    if |a| == 0 {
      assert a + b == b;
    } else {
      var h: seq<Shot> := if a[0].Glitch? then [a[0].shot] else [];
      assert (a + b)[0] == a[0] && (a + b)[1..] == a[1..] + b;
      assert Shots(a + b) == h + Shots(a[1..] + b);
      ShotsAppend(a[1..], b);
      assert h + (Shots(a[1..]) + Shots(b)) == (h + Shots(a[1..])) + Shots(b);
    }
  }

  lemma {:induction false} NoShots(t: seq<Call>)
    requires forall i | 0 <= i < |t| :: !t[i].Glitch?
    ensures Shots(t) == []
    decreases |t|
  {
    if |t| > 0 {
      NoShots(t[1..]);
    }
  }

  /** Counting from `k` over a trace that extends `u` splits at the end of `u`. */
  lemma {:induction false} OccurrencesSplit(u: seq<Call>, t: seq<Call>, k: nat, c: Call)
    requires u <= t && k <= |u|
    ensures Occurrences(t, k, c) == Occurrences(u, k, c) + Occurrences(t, |u|, c)
    decreases |u| - k
  {
    if k < |u| {
      assert t[k] == u[k];
      OccurrencesSplit(u, t, k + 1, c);
    }
  }

  // ---------------------------------------------------------------------------
  // The width and the outcome threaded through the search

  /** Calls other than glitch calls keep the search state consistent. */
  lemma Plain(o: Oracles, s: Search, d: seq<Call>)
    requires Consistent(o, s) && Shots(d) == []
    ensures Consistent(o, s.(trace := s.trace + d))
  {
    ShotsAppend(s.trace, d);
    assert Shots(s.trace + d) == Shots(s.trace);
  }

  /** A glitch call records its arguments, receives the current width and leaves the
      width it reports; the search has glitched exactly when that call succeeded. */
  lemma TryConsistent(o: Oracles, s: Search, offset: int, tries: nat)
    requires Consistent(o, s) && s.hit.None?
    ensures Shots(Try(o, s, offset, tries).trace) == Shots(s.trace) + [Shot(offset, s.width, tries)]
    ensures Consistent(o, Try(o, s, offset, tries))
  {
    var g := Shots(s.trace);
    var shot := Shot(offset, s.width, tries);
    var r := Try(o, s, offset, tries);
    ShotsAppend(s.trace, [Glitch(shot)]);
    assert Shots([Glitch(shot)]) == [shot];
    var h := g + [shot];
    assert Shots(r.trace) == h;
    assert h[..|h| - 1] == g;
    assert Answer(o, h, |g|) == o.glitch(s.n, offset, s.width, tries);
  }

  lemma {:induction false} RecordPassConsistent(o: Oracles, pass: nat, q: nat, s: Search)
    requires Consistent(o, s) && s.hit.None?
    ensures Consistent(o, RecordPass(o, pass, q, s))
    decreases |o.records(pass)| - q
  {
    var s1 := s.(trace := s.trace + [FindRecord]);
    Plain(o, s, [FindRecord]);
    var offset := Query(o, pass, q);
    if offset != -1 {
      TryConsistent(o, s1, offset, RecordTries);
      var s2 := Try(o, s1, offset, RecordTries);
      if s2.hit.None? {
        RecordPassConsistent(o, pass, q + 1, s2);
      }
    }
  }

  lemma {:induction false} TierAConsistent(o: Oracles, y: nat, s: Search)
    requires Consistent(o, s) && s.hit.None?
    ensures Consistent(o, TierA(o, y, s))
    decreases RecordPasses - y
  {
    if y < RecordPasses {
      RecordPassConsistent(o, y, 0, s);
      var s1 := RecordPass(o, y, 0, s);
      if s1.hit.None? {
        TierAConsistent(o, y + 1, s1);
      }
    }
  }

  lemma {:induction false} RandomRoundConsistent(o: Oracles, z: nat, y: nat, s: Search)
    requires Consistent(o, s) && s.hit.None?
    ensures Consistent(o, RandomRound(o, z, y, s))
    decreases o.offsetCount - y
  {
    if y < o.offsetCount {
      TryConsistent(o, s, o.randomOffset(z, y), RandomTries);
      var s1 := Try(o, s, o.randomOffset(z, y), RandomTries);
      if s1.hit.None? {
        RandomRoundConsistent(o, z, y + 1, s1);
      }
    }
  }

  lemma {:induction false} TierBConsistent(o: Oracles, z: nat, s: Search)
    requires Consistent(o, s) && s.hit.None?
    ensures Consistent(o, TierB(o, z, s))
    decreases RandomRounds - z
  {
    if z < RandomRounds {
      var s0 := s.(trace := s.trace + [PrepareRandom]);
      var s1 := RandomRound(o, z, 0, s0);
      assert TierB(o, z, s) == if s1.hit.Some? then s1 else TierB(o, z + 1, s1);
      Plain(o, s, [PrepareRandom]);
      RandomRoundConsistent(o, z, 0, s0);
      if s1.hit.None? {
        TierBConsistent(o, z + 1, s1);
      }
    }
  }

  lemma {:induction false} TierCConsistent(o: Oracles, q: nat, s: Search)
    requires Consistent(o, s) && s.hit.None?
    ensures Consistent(o, TierC(o, q, s))
    decreases LastQueries - q
  {
    if q < LastQueries {
      var s1 := s.(trace := s.trace + [FindRecord]);
      Plain(o, s, [FindRecord]);
      var offset := Query(o, 2, q);
      if offset != -1 {
        TryConsistent(o, s1, offset, RecordTries);
        var s2 := Try(o, s1, offset, RecordTries);
        if s2.hit.None? {
          TierCConsistent(o, q + 1, s2);
        }
      }
    }
  }

  lemma TiersConsistent(o: Oracles, s: Search)
    requires Consistent(o, s) && s.hit.None?
    ensures Consistent(o, Tiers(o, s))
  {
    TierAConsistent(o, 0, s);
    var a := TierA(o, 0, s);
    if a.hit.None? {
      TierBConsistent(o, 0, a);
      var b := TierB(o, 0, a);
      if b.hit.None? {
        NoShots(RewriteCalls);
        Plain(o, b, RewriteCalls);
        TierCConsistent(o, 0, b.(trace := b.trace + RewriteCalls));
      }
    }
  }

  // ---------------------------------------------------------------------------
  // The shape of each tier

  /** Positions `k` onward hold only record queries and glitch calls with
      `RecordTries` tries. */
  predicate RecordLeg(t: seq<Call>, k: nat)
  {
    forall i | k <= i < |t| :: t[i] == FindRecord || (t[i].Glitch? && t[i].shot.tries == RecordTries)
  }

  /** Positions `k` onward hold only refills of the random array and glitch calls
      with `RandomTries` tries. */
  predicate RandomLeg(t: seq<Call>, k: nat)
  {
    forall i | k <= i < |t| :: t[i] == PrepareRandom || (t[i].Glitch? && t[i].shot.tries == RandomTries)
  }

  /** A first-tier pass starts with a query and adds only queries and two-try
      glitch calls. */
  lemma {:induction false} RecordPassShape(o: Oracles, pass: nat, q: nat, s: Search)
    ensures var r := RecordPass(o, pass, q, s);
      && s.trace < r.trace
      && r.trace[|s.trace|] == FindRecord
      && RecordLeg(r.trace, |s.trace|)
    decreases |o.records(pass)| - q
  {
    var s1 := s.(trace := s.trace + [FindRecord]);
    var offset := Query(o, pass, q);
    if offset != -1 {
      var s2 := Try(o, s1, offset, RecordTries);
      if s2.hit.None? {
        RecordPassShape(o, pass, q + 1, s2);
        var r := RecordPass(o, pass, q, s);
        assert r == RecordPass(o, pass, q + 1, s2);
        assert s2.trace == s.trace + [FindRecord, Glitch(Shot(offset, s.width, RecordTries))];
        assert r.trace[..|s2.trace|] == s2.trace;
        assert r.trace[|s.trace|] == s2.trace[|s.trace|];
        assert r.trace[|s.trace| + 1] == s2.trace[|s.trace| + 1];
        assert r.trace[..|s.trace|] == s2.trace[..|s.trace|];
      }
    }
  }

  /** The first tier makes queries and two-try glitch calls only, starting with a query. */
  lemma {:induction false} TierAShape(o: Oracles, y: nat, s: Search)
    ensures var r := TierA(o, y, s);
      && s.trace <= r.trace
      && RecordLeg(r.trace, |s.trace|)
      && (y < RecordPasses ==> |s.trace| < |r.trace| && r.trace[|s.trace|] == FindRecord)
    decreases RecordPasses - y
  {
    if y < RecordPasses {
      RecordPassShape(o, y, 0, s);
      var s1 := RecordPass(o, y, 0, s);
      if s1.hit.None? {
        TierAShape(o, y + 1, s1);
        var r := TierA(o, y, s);
        assert r.trace[..|s1.trace|] == s1.trace;
        assert r.trace[..|s.trace|] == s1.trace[..|s.trace|];
        assert r.trace[|s.trace|] == s1.trace[|s.trace|];
      }
    }
  }

  /** A round of random offsets makes three-try glitch calls only. */
  lemma {:induction false} RandomRoundShape(o: Oracles, z: nat, y: nat, s: Search)
    ensures var r := RandomRound(o, z, y, s);
      && s.trace <= r.trace
      && (forall i | |s.trace| <= i < |r.trace| :: r.trace[i].Glitch? && r.trace[i].shot.tries == RandomTries)
    decreases o.offsetCount - y
  {
    if y < o.offsetCount {
      var s1 := Try(o, s, o.randomOffset(z, y), RandomTries);
      if s1.hit.None? {
        RandomRoundShape(o, z, y + 1, s1);
        var r := RandomRound(o, z, y, s);
        assert r.trace[..|s1.trace|] == s1.trace;
        assert r.trace[..|s.trace|] == s1.trace[..|s.trace|];
        assert r.trace[|s.trace|] == s1.trace[|s.trace|];
      }
    }
  }

  /** `d` alternates record queries and glitch calls, the glitch calls trying the
      answers of pass `pass` from query `q` on, none of them -1. */
  predicate QueriesFrom(o: Oracles, pass: nat, q: nat, d: seq<Call>)
    decreases |d|
  {
    |d| == 0 ||
    (d[0] == FindRecord &&
     (|d| == 1 ||
      (d[1].Glitch? && d[1].shot.offset == Query(o, pass, q) != -1 && QueriesFrom(o, pass, q + 1, d[2..]))))
  }

  /** The last call of `d`, read as `QueriesFrom` reads it, is a query that
      answered -1. */
  predicate EndsOnSentinel(o: Oracles, pass: nat, q: nat, d: seq<Call>)
    decreases |d|
  {
    if |d| <= 1 then |d| == 1 && Query(o, pass, q) == -1
    else EndsOnSentinel(o, pass, q + 1, d[2..])
  }

  /** A first-tier pass from query `q` alternates queries and glitch calls, trying
      the store's answers in order, and when nothing glitches it ends on the query
      that answered -1. */
  lemma {:induction false} RecordPassOffsets(o: Oracles, pass: nat, q: nat, s: Search)
    ensures var r := RecordPass(o, pass, q, s);
      && s.trace <= r.trace
      && QueriesFrom(o, pass, q, r.trace[|s.trace|..])
      && (r.hit.None? ==> EndsOnSentinel(o, pass, q, r.trace[|s.trace|..]))
    decreases |o.records(pass)| - q
  {
    var r := RecordPass(o, pass, q, s);
    var s1 := s.(trace := s.trace + [FindRecord]);
    var offset := Query(o, pass, q);
    if offset == -1 {
      assert r.trace[|s.trace|..] == [FindRecord];
    } else {
      var s2 := Try(o, s1, offset, RecordTries);
      var c := Glitch(Shot(offset, s.width, RecordTries));
      assert s2.trace == s.trace + [FindRecord, c];
      if s2.hit.None? {
        assert r == RecordPass(o, pass, q + 1, s2);
        RecordPassOffsets(o, pass, q + 1, s2);
        assert r.trace[|s.trace|..][2..] == r.trace[|s2.trace|..];
      } else {
        assert r == s2;
        assert r.trace[|s.trace|..] == [FindRecord, c];
      }
    }
  }

  /** A round from entry `y` tries the entries of the random array in order, at
      most once each, and all of them when none glitches. */
  lemma {:induction false} RandomRoundOffsets(o: Oracles, z: nat, y: nat, s: Search)
    requires y <= o.offsetCount
    ensures var r := RandomRound(o, z, y, s);
      && s.trace <= r.trace
      && var d := r.trace[|s.trace|..];
      && |d| <= o.offsetCount - y
      && (forall i | 0 <= i < |d| :: d[i].Glitch? && d[i].shot.offset == o.randomOffset(z, y + i))
      && (r.hit.None? ==> |d| == o.offsetCount - y)
    decreases o.offsetCount - y
  {
    var r := RandomRound(o, z, y, s);
    if y < o.offsetCount {
      var s1 := Try(o, s, o.randomOffset(z, y), RandomTries);
      if s1.hit.None? {
        RandomRoundOffsets(o, z, y + 1, s1);
        var d := r.trace[|s.trace|..];
        var d1 := r.trace[|s1.trace|..];
        assert d == [s1.trace[|s.trace|]] + d1;
        forall i | 0 < i < |d|
          ensures d[i].Glitch? && d[i].shot.offset == o.randomOffset(z, y + i)
        {
          assert d[i] == d1[i - 1];
        }
      }
    }
  }

  lemma RecordLegJoin(u: seq<Call>, t: seq<Call>, k: nat)
    requires u <= t && k <= |u| && RecordLeg(u, k) && RecordLeg(t, |u|)
    ensures RecordLeg(t, k)
  {
    forall i | k <= i < |u| ensures t[i] == u[i] {
      assert t[..|u|][i] == t[i];
    }
  }

  lemma RandomLegJoin(u: seq<Call>, t: seq<Call>, k: nat)
    requires u <= t && k <= |u| && RandomLeg(u, k) && RandomLeg(t, |u|)
    ensures RandomLeg(t, k)
  {
    forall i | k <= i < |u| ensures t[i] == u[i] {
      assert t[..|u|][i] == t[i];
    }
  }

  /** The middle tier starts by refilling the random array, refills it at most
      `RandomRounds - z` times, and otherwise makes three-try glitch calls. */
  lemma {:induction false} TierBShape(o: Oracles, z: nat, s: Search)
    requires z <= RandomRounds
    ensures var r := TierB(o, z, s);
      && s.trace <= r.trace
      && RandomLeg(r.trace, |s.trace|)
      && Occurrences(r.trace, |s.trace|, PrepareRandom) <= RandomRounds - z
      && (r.hit.None? ==> Occurrences(r.trace, |s.trace|, PrepareRandom) == RandomRounds - z)
      && (z < RandomRounds ==> |s.trace| < |r.trace| && r.trace[|s.trace|] == PrepareRandom)
    decreases RandomRounds - z
  {
    if z < RandomRounds {
      var s0 := s.(trace := s.trace + [PrepareRandom]);
      RandomRoundShape(o, z, 0, s0);
      var s1 := RandomRound(o, z, 0, s0);
      assert s0.trace <= s1.trace;
      assert s.trace <= s1.trace && s1.trace[|s.trace|] == PrepareRandom by {
        assert s1.trace[..|s0.trace|] == s0.trace;
        assert s1.trace[..|s.trace|] == s0.trace[..|s.trace|];
        assert s1.trace[|s.trace|] == s0.trace[|s.trace|];
      }
      assert RandomLeg(s1.trace, |s.trace|);
      RoundHasNoRefill(s1.trace, |s0.trace|);
      assert Occurrences(s1.trace, |s.trace|, PrepareRandom) == 1;
      if s1.hit.None? {
        TierBShape(o, z + 1, s1);
        var r := TierB(o, z + 1, s1);
        assert r == TierB(o, z, s);
        RandomLegJoin(s1.trace, r.trace, |s.trace|);
        OccurrencesSplit(s1.trace, r.trace, |s.trace|, PrepareRandom);
        assert r.trace[..|s.trace|] == s.trace by {
          assert r.trace[..|s1.trace|] == s1.trace;
          assert r.trace[..|s.trace|] == s1.trace[..|s.trace|];
        }
        assert r.trace[|s.trace|] == PrepareRandom by {
          assert r.trace[..|s1.trace|] == s1.trace;
          assert r.trace[|s.trace|] == r.trace[..|s1.trace|][|s.trace|];
        }
        assert Occurrences(r.trace, |s1.trace|, PrepareRandom) <= RandomRounds - (z + 1);
        assert Occurrences(r.trace, |s.trace|, PrepareRandom) <= RandomRounds - z;
      } else {
        assert TierB(o, z, s) == s1;
      }
    } else {
      assert TierB(o, z, s) == s;
      assert Occurrences(s.trace, |s.trace|, PrepareRandom) == 0;
    }
  }

  lemma {:induction false} RoundHasNoRefill(t: seq<Call>, k: nat)
    requires forall i | k <= i < |t| :: t[i].Glitch?
    ensures Occurrences(t, k, PrepareRandom) == 0
    decreases |t| - k
  {
    if k < |t| {
      RoundHasNoRefill(t, k + 1);
    }
  }

  /** The last tier makes at most `LastQueries - q` queries and two-try glitch calls only. */
  lemma {:induction false} TierCShape(o: Oracles, q: nat, s: Search)
    requires q <= LastQueries
    ensures var r := TierC(o, q, s);
      && s.trace <= r.trace
      && RecordLeg(r.trace, |s.trace|)
      && Occurrences(r.trace, |s.trace|, FindRecord) <= LastQueries - q
    decreases LastQueries - q
  {
    if q < LastQueries {
      var n := |s.trace|;
      var s1 := s.(trace := s.trace + [FindRecord]);
      var offset := Query(o, 2, q);
      if offset == -1 {
        assert TierC(o, q, s) == s1;
        assert Occurrences(s1.trace, n + 1, FindRecord) == 0;
      } else {
        var s2 := Try(o, s1, offset, RecordTries);
        assert TierC(o, q, s) == if s2.hit.Some? then s2 else TierC(o, q + 1, s2);
        assert s2.trace == s.trace + [FindRecord, Glitch(Shot(offset, s.width, RecordTries))];
        QueryThenGlitch(s2.trace, n);
        if s2.hit.None? {
          TierCShape(o, q + 1, s2);
          var r := TierC(o, q + 1, s2);
          RecordLegJoin(s2.trace, r.trace, n);
          OccurrencesSplit(s2.trace, r.trace, n, FindRecord);
          assert r.trace[..n] == s.trace by {
            assert r.trace[..|s2.trace|] == s2.trace;
            assert r.trace[..n] == s2.trace[..n];
          }
        }
      }
    }
  }

  /** A query followed by a two-try glitch call counts one query. */
  lemma QueryThenGlitch(t: seq<Call>, n: nat)
    requires |t| == n + 2 && t[n] == FindRecord && t[n + 1].Glitch? && t[n + 1].shot.tries == RecordTries
    ensures Occurrences(t, n, FindRecord) == 1 && RecordLeg(t, n)
  {
    assert Occurrences(t, n + 2, FindRecord) == 0;
  }

  /** The last tier from query `q` alternates queries and two-try glitch calls on
      the answers of ranking pass 2, in order; when nothing glitches it ends either
      on the query that answered -1 or after its last allowed query. */
  lemma {:induction false} TierCOffsets(o: Oracles, q: nat, s: Search)
    requires q <= LastQueries
    ensures var r := TierC(o, q, s);
      && s.trace <= r.trace
      && QueriesFrom(o, 2, q, r.trace[|s.trace|..])
      && |r.trace| - |s.trace| <= 2 * (LastQueries - q)
      && (r.hit.None? ==>
            EndsOnSentinel(o, 2, q, r.trace[|s.trace|..]) || |r.trace| - |s.trace| == 2 * (LastQueries - q))
    decreases LastQueries - q
  {
    var r := TierC(o, q, s);
    if q >= LastQueries {
      assert r == s;
      assert r.trace[|s.trace|..] == [];
    } else {
      var s1 := s.(trace := s.trace + [FindRecord]);
      var offset := Query(o, 2, q);
      if offset == -1 {
        assert r == s1;
        assert r.trace[|s.trace|..] == [FindRecord];
      } else {
        var s2 := Try(o, s1, offset, RecordTries);
        var c := Glitch(Shot(offset, s.width, RecordTries));
        assert s2.trace == s.trace + [FindRecord, c];
        if s2.hit.None? {
          assert r == TierC(o, q + 1, s2);
          TierCOffsets(o, q + 1, s2);
          assert r.trace[|s.trace|..][2..] == r.trace[|s2.trace|..];
        } else {
          assert r == s2;
          assert r.trace[|s.trace|..] == [FindRecord, c];
        }
      }
    }
  }

  /** The first tier is at most two ranking passes: pass 0 from the start, then pass
      1 from a fresh ranking, which runs only after pass 0 ended on a -1 answer. When
      nothing glitched, both passes ended on a -1 answer. */
  lemma TierARanks(o: Oracles, s: Search) returns (d0: seq<Call>, d1: seq<Call>)
    ensures var a := TierA(o, 0, s);
      && a.trace == s.trace + d0 + d1
      && d0 != [] && QueriesFrom(o, 0, 0, d0)
      && (d1 != [] ==> EndsOnSentinel(o, 0, 0, d0) && QueriesFrom(o, 1, 0, d1))
      && (a.hit.None? ==> EndsOnSentinel(o, 0, 0, d0) && EndsOnSentinel(o, 1, 0, d1))
  {
    var p0 := RecordPass(o, 0, 0, s);
    RecordPassOffsets(o, 0, 0, s);
    RecordPassShape(o, 0, 0, s);
    d0 := p0.trace[|s.trace|..];
    assert p0.trace == s.trace + d0;
    if p0.hit.Some? {
      assert TierA(o, 0, s) == p0;
      d1 := [];
      assert p0.trace == s.trace + d0 + d1;
    } else {
      var p1 := RecordPass(o, 1, 0, p0);
      RecordPassOffsets(o, 1, 0, p0);
      assert TierA(o, 1, p0) == p1 by {
        if p1.hit.None? {
          assert TierA(o, 2, p1) == p1;
        }
      }
      assert TierA(o, 0, s) == p1;
      d1 := p1.trace[|p0.trace|..];
      assert p1.trace == p0.trace + d1;
    }
  }

  /** The offsets one random round tries: entries of round `z`'s array, in order. */
  predicate RoundOffsets(o: Oracles, z: nat, d: seq<Call>)
  {
    && |d| <= o.offsetCount
    && forall i | 0 <= i < |d| :: d[i].Glitch? && d[i].shot.offset == o.randomOffset(z, i)
  }

  /** The middle tier, entered with nothing glitched, is at most two rounds: a refill
      and the entries of round 0, then, only after all of round 0 failed, a refill and
      the entries of round 1. When nothing glitched, both rounds tried every entry. */
  lemma TierBRounds(o: Oracles, s: Search) returns (e0: seq<Call>, e1: seq<Call>)
    requires s.hit.None?
    ensures var b := TierB(o, 0, s);
      && b.trace == s.trace + [PrepareRandom] + e0 + e1
      && RoundOffsets(o, 0, e0)
      && (e1 != [] ==> |e0| == o.offsetCount && e1[0] == PrepareRandom && RoundOffsets(o, 1, e1[1..]))
      && (b.hit.None? ==> |e0| == o.offsetCount && |e1| == 1 + o.offsetCount)
  {
    var s0 := s.(trace := s.trace + [PrepareRandom]);
    var r0 := RandomRound(o, 0, 0, s0);
    RandomRoundOffsets(o, 0, 0, s0);
    e0 := r0.trace[|s0.trace|..];
    assert r0.trace == s.trace + [PrepareRandom] + e0;
    if r0.hit.Some? {
      assert TierB(o, 0, s) == r0;
      e1 := [];
      assert r0.trace == s.trace + [PrepareRandom] + e0 + e1;
    } else {
      assert |e0| == o.offsetCount by {
        if o.offsetCount == 0 {
          assert r0 == s0;
        }
      }
      var s1 := r0.(trace := r0.trace + [PrepareRandom]);
      var r1 := RandomRound(o, 1, 0, s1);
      RandomRoundOffsets(o, 1, 0, s1);
      assert TierB(o, 1, r0) == r1 by {
        if r1.hit.None? {
          assert TierB(o, 2, r1) == r1;
        }
      }
      assert TierB(o, 0, s) == r1;
      var f := r1.trace[|s1.trace|..];
      e1 := [PrepareRandom] + f;
      assert r1.trace == s.trace + [PrepareRandom] + e0 + e1;
      assert e1[1..] == f;
      assert r1.hit.None? ==> |f| == o.offsetCount by {
        if r1.hit.None? && o.offsetCount == 0 {
          assert r1 == s1;
        }
      }
    }
  }

  /** The tiers run in order, each only when the earlier ones failed: the first
      makes record queries and two-try glitch calls; the second refills the random
      array one to two times, both times when nothing glitched, and makes three-try
      glitch calls; the third starts with a payload rewrite and makes at most three
      record queries of ranking pass 2, trying its answers in order. */
  lemma TiersShape(o: Oracles, s: Search)
    ensures var a := TierA(o, 0, s);
      var r := Tiers(o, s);
      && s.trace < a.trace && a.trace[|s.trace|] == FindRecord && RecordLeg(a.trace, |s.trace|)
      && (a.hit.Some? ==> r == a)
      && (a.hit.None? ==>
            var b := TierB(o, 0, a);
            && a.trace < b.trace && b.trace[|a.trace|] == PrepareRandom
            && RandomLeg(b.trace, |a.trace|)
            && 1 <= Occurrences(b.trace, |a.trace|, PrepareRandom) <= RandomRounds
            && (b.hit.Some? ==> r == b)
            && (b.hit.None? ==>
                  && Occurrences(b.trace, |a.trace|, PrepareRandom) == RandomRounds
                  && b.trace + RewriteCalls <= r.trace
                  && RecordLeg(r.trace, |b.trace| + |RewriteCalls|)
                  && Occurrences(r.trace, |b.trace| + |RewriteCalls|, FindRecord) <= LastQueries
                  && QueriesFrom(o, 2, 0, r.trace[|b.trace| + |RewriteCalls|..])))
  {
    TierAShape(o, 0, s);
    var a := TierA(o, 0, s);
    if a.hit.None? {
      TierBShape(o, 0, a);
      var b := TierB(o, 0, a);
      assert Occurrences(b.trace, |a.trace|, PrepareRandom) >= 1;
      if b.hit.None? {
        TierCShape(o, 0, b.(trace := b.trace + RewriteCalls));
        TierCOffsets(o, 0, b.(trace := b.trace + RewriteCalls));
      }
    }
  }

  /** The calls the search makes, after its starting trace. */
  predicate SearchCall(c: Call)
  {
    c == FindRecord || c == PrepareRandom || c.Glitch? || c in RewriteCalls
  }

  /** The search starts with a record query and makes only the calls of its tiers. */
  lemma TiersCalls(o: Oracles, s: Search)
    ensures var r := Tiers(o, s);
      && s.trace < r.trace
      && r.trace[|s.trace|] == FindRecord
      && forall i | |s.trace| <= i < |r.trace| :: SearchCall(r.trace[i])
  {
    TiersShape(o, s);
    var a := TierA(o, 0, s);
    var r := Tiers(o, s);
    if a.hit.None? {
      var b := TierB(o, 0, a);
      assert r.trace[..|a.trace|] == a.trace by {
        assert b.trace[..|a.trace|] == a.trace;
        if b.hit.None? {
          assert r.trace[..|b.trace|] == b.trace by {
            assert r.trace[..|b.trace + RewriteCalls|] == b.trace + RewriteCalls;
          }
        }
      }
      assert r.trace[|s.trace|] == a.trace[|s.trace|] by {
        assert r.trace[..|a.trace|][|s.trace|] == r.trace[|s.trace|];
      }
      assert r.trace[..|s.trace|] == s.trace by {
        assert r.trace[..|s.trace|] == r.trace[..|a.trace|][..|s.trace|];
      }
      if b.hit.None? {
        var m := |b.trace| + |RewriteCalls|;
        forall i | |s.trace| <= i < |r.trace| ensures SearchCall(r.trace[i]) {
          if i < |a.trace| {
            assert r.trace[i] == (b.trace + RewriteCalls)[i] == a.trace[i];
          } else if i < |b.trace| {
            assert r.trace[i] == (b.trace + RewriteCalls)[i] == b.trace[i];
          } else if i < m {
            assert r.trace[i] == (b.trace + RewriteCalls)[i] == RewriteCalls[i - |b.trace|];
          }
        }
      } else {
        forall i | |s.trace| <= i < |r.trace| ensures SearchCall(r.trace[i]) {
          if i < |a.trace| {
            assert r.trace[i] == a.trace[i];
          }
        }
      }
    }
  }

  // ---------------------------------------------------------------------------
  // The run

  predicate FirstBoot(o: Oracles)
  {
    o.watchdogReboot && o.bootTry == 0
  }

  /** Whether the run reaches the search: the first-boot gate is passed and the
      self-test returns. */
  predicate Searches(o: Oracles)
  {
    !FirstBoot(o) && SelfTest.Run(o.polls).None?
  }

  /** No call of `t` burns a fuse or adds a boot record. */
  predicate Unpersisted(t: seq<Call>)
  {
    forall i | 0 <= i < |t| :: !t[i].BurnFuse? && !t[i].AddRecord?
  }

  lemma OpeningCalls(o: Oracles)
    ensures forall i | 0 <= i < |Opening(o)| ::
      Opening(o)[i] == DetectButton || Opening(o)[i].SetLed? || Opening(o)[i].ReadRail?
  {
    var rr := RailReads(Loop(0, o.polls).readings);
    forall i | 0 <= i < |Opening(o)|
      ensures Opening(o)[i] == DetectButton || Opening(o)[i].SetLed? || Opening(o)[i].ReadRail?
    {
      if i >= 2 {
        assert Opening(o)[i] == rr[i - 2];
      }
    }
  }

  /** The calls between the self-test and the search: the payload is written exactly
      when a rewrite is needed, and `is_configured` is asked exactly when the button
      was not pressed. */
  lemma PreparationCalls(o: Oracles)
    ensures var d := Preparation(o);
      && (forall i | 0 <= i < |d| :: !d[i].Glitch? && !d[i].BurnFuse? && !d[i].AddRecord? && d[i] != FindRecord)
      && (WritePayload in d <==> NeedsRewrite(o))
      && (IsConfigured in d <==> !o.forceButton)
  {
  }

  /** Before the search: no glitch call, no record query and no persisted write;
      the payload is written exactly when a rewrite is needed, and `is_configured`
      is asked exactly when the button was not pressed. */
  lemma StartCalls(o: Oracles)
    ensures var p := Start(o).trace;
      && Shots(p) == []
      && Unpersisted(p)
      && FindRecord !in p
      && (WritePayload in p <==> NeedsRewrite(o))
      && (IsConfigured in p <==> !o.forceButton)
  {
    var opening := Opening(o);
    var d := Preparation(o);
    var p := Start(o).trace;
    OpeningCalls(o);
    PreparationCalls(o);
    assert p == opening + d;
    assert forall i | 0 <= i < |p| :: !p[i].Glitch? && !p[i].BurnFuse? && !p[i].AddRecord? && p[i] != FindRecord by {
      forall i | 0 <= i < |p|
        ensures !p[i].Glitch? && !p[i].BurnFuse? && !p[i].AddRecord? && p[i] != FindRecord
      {
        if i < |opening| {
          assert p[i] == opening[i];
        } else {
          assert p[i] == d[i - |opening|];
        }
      }
    }
    NoShots(p);
    assert WritePayload !in opening && IsConfigured !in opening;
  }

  lemma StartConsistent(o: Oracles)
    ensures Consistent(o, Start(o))
  {
    StartCalls(o);
  }

  /** A trace that extends `s`, which extends `p` by a record query, starts with `p`
      and the query. */
  lemma QueryAfter(p: seq<Call>, s: seq<Call>, t: seq<Call>)
    requires p < s && s <= t && s[|p|] == FindRecord
    ensures |p| < |t| && t[..|p|] == p && t[|p|] == FindRecord
  {
    assert t[..|s|] == s;
    assert t[..|p|] == s[..|p|];
    assert t[|p|] == t[..|s|][|p|];
  }

  /** Extending a trace without persisted writes by search calls writes none either. */
  lemma UnpersistedSearch(p: seq<Call>, t: seq<Call>)
    requires p <= t && Unpersisted(p)
    requires forall i | |p| <= i < |t| :: SearchCall(t[i])
    ensures Unpersisted(t)
  {
    forall i | 0 <= i < |p| ensures t[i] == p[i] {
      assert t[..|p|][i] == t[i];
    }
  }

  /** The search `main` runs keeps its state consistent, begins with a record query
      right after the starting calls, and writes no persisted state. */
  lemma SearchFacts(o: Oracles)
    ensures var p := Start(o).trace;
      var s := Tiers(o, Start(o));
      && Consistent(o, s)
      && p < s.trace && s.trace[|p|] == FindRecord
      && Unpersisted(s.trace)
  {
    var p := Start(o).trace;
    var s := Tiers(o, Start(o));
    StartCalls(o);
    StartConsistent(o);
    TiersConsistent(o, Start(o));
    TiersCalls(o, Start(o));
    UnpersistedSearch(p, s.trace);
  }

  /** What the end of the run does after a consistent search that wrote nothing
      persistent: it halts with `(0, 1)` exactly when the last glitch call succeeded
      and `(7, 3)` otherwise; it burns a fuse, once, exactly on success with the fuse
      count's parity differing from the boot slot; and it adds the boot record of
      the successful offset as its very last call and nowhere else. */
  lemma FinishFacts(o: Oracles, s: Search)
    requires Consistent(o, s) && Unpersisted(s.trace)
    ensures var f := Finish(o, s);
      var t := f.trace;
      var g := Shots(t);
      && s.trace <= t
      && g == Shots(s.trace)
      && (f.halt == Code(0, 1) <==> Succeeded(o, g))
      && (f.halt == Code(7, 3) <==> !Succeeded(o, g))
      && (BurnFuse in t <==> f.halt == Code(0, 1) && o.fuseCount % 2 != o.bootSlot)
      && multiset(t)[BurnFuse] == (if f.halt == Code(0, 1) && o.fuseCount % 2 != o.bootSlot then 1 else 0)
      && (forall i | 0 <= i < |t| && t[i].AddRecord? :: f.halt == Code(0, 1) && i == |t| - 1)
      && (f.halt == Code(0, 1) ==> |g| > 0 && t[|t| - 1] == AddRecord(g[|g| - 1].offset))
  {
    FinishCalls(o, s);
    FinishFuses(o, s);
  }

  /** The calls the end of the run adds, as `FinishFacts` states them apart from the
      fuse count. */
  lemma FinishCalls(o: Oracles, s: Search)
    requires Consistent(o, s) && Unpersisted(s.trace)
    ensures var f := Finish(o, s);
      var t := f.trace;
      var g := Shots(t);
      && s.trace <= t
      && g == Shots(s.trace)
      && (f.halt == Code(0, 1) <==> Succeeded(o, g))
      && (f.halt == Code(7, 3) <==> !Succeeded(o, g))
      && (BurnFuse in t <==> f.halt == Code(0, 1) && o.fuseCount % 2 != o.bootSlot)
      && (forall i | 0 <= i < |t| && t[i].AddRecord? :: f.halt == Code(0, 1) && i == |t| - 1)
      && (f.halt == Code(0, 1) ==> |g| > 0 && t[|t| - 1] == AddRecord(g[|g| - 1].offset))
  {
    var t := Finish(o, s).trace;
    if s.hit.Some? {
      var e := Success(o, s.hit.value);
      assert t == s.trace + e;
      ShotsAppend(s.trace, e);
      NoShots(e);
      assert forall i | 0 <= i < |s.trace| :: t[i] == s.trace[i];
      forall i | 0 <= i < |t| && t[i].AddRecord?
        ensures i == |t| - 1
      {
        if i >= |s.trace| {
          assert t[i] == e[i - |s.trace|];
        }
      }
      if BurnFuse in t {
        var i :| 0 <= i < |t| && t[i] == BurnFuse;
        if i >= |s.trace| {
          assert t[i] == e[i - |s.trace|];
        }
      }
      if o.fuseCount % 2 != o.bootSlot {
        assert t[|s.trace| + 6] == BurnFuse;
      }
    }
  }

  /** The end of the run burns no fuse beyond the success calls' one. */
  lemma FinishFuses(o: Oracles, s: Search)
    requires Unpersisted(s.trace)
    ensures multiset(Finish(o, s).trace)[BurnFuse]
         == if s.hit.Some? && o.fuseCount % 2 != o.bootSlot then 1 else 0
  {
    UnpersistedNoFuse(s.trace);
    if s.hit.Some? {
      var e := Success(o, s.hit.value);
      SuccessFuses(o, s.hit.value);
      assert multiset(s.trace + e) == multiset(s.trace) + multiset(e);
    }
  }

  /** A trace without persisted writes burns no fuse. */
  lemma UnpersistedNoFuse(t: seq<Call>)
    requires Unpersisted(t)
    ensures multiset(t)[BurnFuse] == 0
  {
    assert BurnFuse !in t;
  }

  /** The success calls burn the fuse once when the parity differs from the boot
      slot, and not at all otherwise. */
  lemma SuccessFuses(o: Oracles, offset: int)
    ensures multiset(Success(o, offset))[BurnFuse] == if o.fuseCount % 2 != o.bootSlot then 1 else 0
  {
    var head := [Delay(100), SetLed(Off), Delay(50000), SetLed(PixWhi), Delay(200000), CountFuses];
    var fuse: seq<Call> := if o.fuseCount % 2 != o.bootSlot then [BurnFuse] else [];
    var tail := [AddRecord(offset)];
    assert Success(o, offset) == head + fuse + tail;
    assert multiset(head + fuse + tail) == multiset(head) + multiset(fuse) + multiset(tail);
    assert BurnFuse !in head && BurnFuse !in tail;
  }

  /** A run that reaches the search ends as the search leaves it. */
  lemma MainSearches(o: Oracles)
    requires Searches(o)
    ensures Main(o) == Finish(o, Tiers(o, Start(o)))
  {
  }

  /** A run that does not reach the search makes no glitch call and writes nothing
      persistent. */
  lemma MainStops(o: Oracles)
    requires !Searches(o)
    ensures Shots(Main(o).trace) == [] && Unpersisted(Main(o).trace)
    ensures Main(o).halt == Code(1, 1) || Main(o).halt.bits == 2
    ensures Main(o).trace == [] <==> FirstBoot(o)
    ensures !FirstBoot(o) ==> Main(o).halt == SelfTest.Run(o.polls).value
  {
    if !FirstBoot(o) {
      OpeningCalls(o);
      NoShots(Opening(o));
      var v := SelfTest.Run(o.polls);
      assert v.value.bits == 2;
    }
  }

  /** The first-boot gate: after a watchdog reboot with `boot_try == 0` the run halts
      with `(1, 1)` before any other call, and only then does it halt with `(1, 1)`
      or make no call at all. */
  lemma FirstBootGate(o: Oracles)
    ensures Main(o).trace == [] <==> FirstBoot(o)
    ensures Main(o).halt == Code(1, 1) <==> FirstBoot(o)
  {
    if Searches(o) {
      MainSearches(o);
      SearchFacts(o);
      FinishFacts(o, Tiers(o, Start(o)));
    } else {
      MainStops(o);
    }
  }

  /** A self-test that finds a rail out of range halts the run with its code after
      the self-test's own calls: no rewrite, search or persisted write happens. */
  lemma SelfTestFailure(o: Oracles)
    requires !FirstBoot(o) && SelfTest.Run(o.polls).Some?
    ensures Main(o).halt == SelfTest.Run(o.polls).value
    ensures Main(o).trace[..2] == [DetectButton, SetLed(PixGre)]
    ensures forall i | 2 <= i < |Main(o).trace| :: Main(o).trace[i].ReadRail?
  {
    OpeningCalls(o);
  }

  /** The rewrite decision: the search begins with a record query, and before it the
      payload is rewritten exactly when the fast check failed, the button forced it
      or the eMMC is not configured; `is_configured` is asked only when the button
      was not pressed. */
  lemma RewriteDecision(o: Oracles)
    requires Searches(o)
    ensures var t := Main(o).trace;
      exists k | 0 <= k < |t| ::
        && t[k] == FindRecord
        && FindRecord !in t[..k]
        && (WritePayload in t[..k] <==> NeedsRewrite(o))
        && (IsConfigured in t[..k] <==> !o.forceButton)
  {
    var s := Tiers(o, Start(o));
    var p := Start(o).trace;
    MainSearches(o);
    SearchFacts(o);
    FinishFacts(o, s);
    StartCalls(o);
    QueryAfter(p, s.trace, Finish(o, s).trace);
    var k := |p|;
  }

  /** Width threading: the first glitch call of the run receives width 140 and every
      later one exactly the width the previous call left, across all three tiers. */
  lemma WidthThreading(o: Oracles)
    ensures var g := Shots(Main(o).trace);
      && (|g| > 0 ==> g[0].width == InitialWidth)
      && forall k | 0 < k < |g| :: g[k].width == o.glitch(k - 1, g[k - 1].offset, g[k - 1].width, g[k - 1].tries).width
  {
    if Searches(o) {
      MainSearches(o);
      SearchFacts(o);
      FinishFacts(o, Tiers(o, Start(o)));
      ChainedMeans(o, Shots(Main(o).trace));
    } else {
      MainStops(o);
    }
  }

  /** After a consistent search, the run halts with `(0, 1)` exactly when its last
      glitch call succeeded, and every glitch call before the last failed. */
  lemma FinishOutcome(o: Oracles, s: Search)
    requires Consistent(o, s) && Unpersisted(s.trace)
    ensures var g := Shots(Finish(o, s).trace);
      && (forall k | 0 <= k < |g| - 1 :: !o.glitch(k, g[k].offset, g[k].width, g[k].tries).ok)
      && (Finish(o, s).halt == Code(0, 1) <==>
            |g| > 0 && o.glitch(|g| - 1, g[|g| - 1].offset, g[|g| - 1].width, g[|g| - 1].tries).ok)
  {
    FinishFacts(o, s);
    var g := Shots(s.trace);
    ChainedMeans(o, g);
    forall k | 0 <= k < |g| - 1
      ensures !o.glitch(k, g[k].offset, g[k].width, g[k].tries).ok
    {
      assert !Answer(o, g, k).ok;
    }
  }

  /** The run halts with `(0, 1)` exactly when its last glitch call succeeded, and
      every glitch call before the last failed. */
  lemma SuccessIsLastGlitch(o: Oracles)
    ensures var g := Shots(Main(o).trace);
      && (forall k | 0 <= k < |g| - 1 :: !o.glitch(k, g[k].offset, g[k].width, g[k].tries).ok)
      && (Main(o).halt == Code(0, 1) <==>
            |g| > 0 && o.glitch(|g| - 1, g[|g| - 1].offset, g[|g| - 1].width, g[|g| - 1].tries).ok)
  {
    if Searches(o) {
      MainSearches(o);
      SearchFacts(o);
      FinishOutcome(o, Tiers(o, Start(o)));
    } else {
      MainStops(o);
    }
  }

  /** Persisted state is written only on success: a fuse is burnt, once, exactly when the
      run succeeded and the fuse count's parity differs from the boot slot, and the
      boot record of the offset whose glitch succeeded is added as the very last call
      of a successful run and at no other point. */
  lemma PersistOnSuccess(o: Oracles)
    ensures var t := Main(o).trace;
      var g := Shots(t);
      var success := Main(o).halt == Code(0, 1);
      && (BurnFuse in t <==> success && o.fuseCount % 2 != o.bootSlot)
      && multiset(t)[BurnFuse] == (if success && o.fuseCount % 2 != o.bootSlot then 1 else 0)
      && (forall i | 0 <= i < |t| && t[i].AddRecord? :: success && i == |t| - 1)
      && (success ==> |g| > 0 && t[|t| - 1] == AddRecord(g[|g| - 1].offset))
  {
    if Searches(o) {
      MainSearches(o);
      SearchFacts(o);
      FinishCalls(o, Tiers(o, Start(o)));
    } else {
      MainStops(o);
    }
    RunFuses(o);
  }

  /** A run burns the fuse at most once: once on success when the fuse count's
      parity differs from the boot slot, and never otherwise. */
  lemma RunFuses(o: Oracles)
    ensures multiset(Main(o).trace)[BurnFuse]
         == if Main(o).halt == Code(0, 1) && o.fuseCount % 2 != o.bootSlot then 1 else 0
  {
    if Searches(o) {
      var s := Tiers(o, Start(o));
      MainSearches(o);
      SearchFacts(o);
      FinishFuses(o, s);
      assert Main(o).halt == Code(0, 1) <==> s.hit.Some?;
    } else {
      MainStops(o);
      UnpersistedNoFuse(Main(o).trace);
    }
  }

  /** The codes a run can halt with: `(1, 1)` at the first-boot gate, `(i, 2)` for a
      rail out of range, `(0, 1)` after a successful glitch, and `(7, 3)` when the
      search is exhausted, which happens exactly when the run searched and no glitch
      call succeeded. */
  lemma HaltCodes(o: Oracles)
    ensures Main(o).halt in {Code(1, 1), Code(0, 2), Code(1, 2), Code(2, 2), Code(0, 1), Code(7, 3)}
    ensures Main(o).halt == Code(7, 3) <==> Searches(o) && !Succeeded(o, Shots(Main(o).trace))
  {
    if Searches(o) {
      MainSearches(o);
      SearchFacts(o);
      FinishFacts(o, Tiers(o, Start(o)));
    } else {
      MainStops(o);
      if !FirstBoot(o) {
        var v := SelfTest.Run(o.polls);
        assert v.value.bits == 2 && v.value.err < 3;
      }
    }
  }
}

=== FILE: pins.dfy ===
/** The pin-quiescing plan `finish_pins_except_leds` (misc.c) runs before every halt:
    every GPIO of the RP2040 bank except the indicator's data and power pins loses its
    input and output, and its pulls are switched off, except that the glitch-trigger
    pins are pulled down so the trigger line cannot float. */
module Pins {

  const FirstPin := 0
  const LastPin := 29

  /** The pad controls the plan touches: the two pull enables, the input enable
      and the output disable. */
  datatype Pad = Pad(pullUp: bool, pullDown: bool, inputEnable: bool, outputDisable: bool)

  /** The board's reserved pins: the indicator's data and power pins (chosen by board
      detection) and the glitch-trigger pin of each supported board. */
  datatype Wiring = Wiring(led: int, pwr: int, gliPico: int, gliXiao: int, gliWs: int, gliItsy: int)

  predicate IsGlitchPin(w: Wiring, pin: int)
  {
    pin == w.gliPico || pin == w.gliXiao || pin == w.gliWs || pin == w.gliItsy
  }

  /** The pins the plan handles: the whole bank but the indicator's two pins. */
  predicate Handled(w: Wiring, pin: int)
  {
    FirstPin <= pin <= LastPin && pin != w.led && pin != w.pwr
  }

  /** The state a handled pin is left in: `gpio_pull_down` or `gpio_disable_pulls`,
      then `gpio_disable_input_output` (output disabled, input disabled). */
  function Quiesced(w: Wiring, pin: int): Pad
  {
    if IsGlitchPin(w, pin) then Pad(false, true, false, true) else Pad(false, false, false, true)
  }

  /** Every pin of the bank has a pad. */
  predicate Bank(pads: map<int, Pad>)
  {
    forall pin | FirstPin <= pin <= LastPin :: pin in pads
  }

  /** The pads after the plan: every handled pin has input and output disabled and
      no pull-up, and is pulled down exactly when it is a glitch-trigger pin; every
      other pad, the indicator's two pins among them, is left as it was. */
  function Plan(pads: map<int, Pad>, w: Wiring): (r: map<int, Pad>)
    requires Bank(pads)
    ensures r.Keys == pads.Keys
    ensures forall pin | Handled(w, pin) :: !r[pin].inputEnable && r[pin].outputDisable
    ensures forall pin | Handled(w, pin) :: !r[pin].pullUp && (r[pin].pullDown <==> IsGlitchPin(w, pin))
    ensures forall pin | pin in pads && !Handled(w, pin) :: r[pin] == pads[pin]
  {
    map pin | pin in pads :: if Handled(w, pin) then Quiesced(w, pin) else pads[pin]
  }

  /** The plan as the firmware runs it: one pass over pins 0 to 29 in order,
      skipping the indicator's pins. */
  method FinishPinsExceptLeds(pads: map<int, Pad>, w: Wiring) returns (r: map<int, Pad>)
    requires Bank(pads)
    ensures r == Plan(pads, w)
  {
    r := pads;
    var pin := FirstPin;
    while pin <= LastPin
      invariant FirstPin <= pin <= LastPin + 1
      invariant r.Keys == pads.Keys
      invariant forall p | p in pads :: r[p] == if Handled(w, p) && p < pin then Quiesced(w, p) else pads[p]
    {
      if pin == w.led || pin == w.pwr {
        pin := pin + 1;
        continue;
      }
      var pad := r[pin];
      if IsGlitchPin(w, pin) {
        pad := pad.(pullUp := false, pullDown := true);
      } else {
        pad := pad.(pullUp := false, pullDown := false);
      }
      pad := pad.(inputEnable := false, outputDisable := true);
      r := r[pin := pad];
      pin := pin + 1;
    }
  }

  /** Quiescing is idempotent: running the plan on already quiesced pads changes nothing. */
  lemma PlanIdempotent(pads: map<int, Pad>, w: Wiring)
    requires Bank(pads)
    ensures Plan(Plan(pads, w), w) == Plan(pads, w)
  {
  }
}

=== FILE: pixel.dfy ===
/** Indicator colours and the word `put_pixel` hands to the WS2812 state machine on
    boards with an RGB LED (misc.h, misc.c). */
module Pixel {

  // Colours as 0xRRGGBB words.
  const Off: bv32 := 0
  const PixGre: bv32 := 0x16537e
  const PixRed: bv32 := 0xc90000
  const PixWhi: bv32 := 0xff9200

  /** One colour given by its three channel bytes. */
  datatype Colour = Colour(red: bv8, green: bv8, blue: bv8)

  /** The colour as the 0xRRGGBB word callers pass to `put_pixel`. */
  function RgbWord(c: Colour): bv32
  {
    ((c.red as bv32) << 16) | ((c.green as bv32) << 8) | (c.blue as bv32)
  }

  /** The colour in the green-red-blue order the LED expects on the wire. */
  function GrbWord(c: Colour): bv32
  {
    ((c.green as bv32) << 16) | ((c.red as bv32) << 8) | (c.blue as bv32)
  }

  /** The channels of an 0xRRGGBB word; its top byte is ignored. */
  function ChannelsOf(rgb: bv32): (c: Colour)
    ensures RgbWord(c) == rgb & 0xFF_FFFF
  {
    Colour(((rgb >> 16) & 0xFF) as bv8, ((rgb >> 8) & 0xFF) as bv8, (rgb & 0xFF) as bv8)
  }

  /** The RGB-to-GRB repacking of `put_pixel`: red and green bytes swap places,
      blue stays, and the top byte of the argument is dropped. */
  function ToGrb(rgb: bv32): (grb: bv32)
    ensures grb < 0x100_0000
    ensures grb == GrbWord(ChannelsOf(rgb))
  {
    var red := (rgb >> 16) & 0xFF;
    var green := (rgb >> 8) & 0xFF;
    var blue := rgb & 0xFF;
    (green << 16) | (red << 8) | blue
  }

  /** The word pushed into the state machine's FIFO: the GRB colour in the top
      three bytes. The shift loses nothing because the colour fits in 24 bits. */
  function FifoWord(rgb: bv32): (w: bv32)
    ensures w & 0xFF == 0
    ensures w >> 8 == ToGrb(rgb)
  {
    ToGrb(rgb) << 8
  }

  /** Packing a colour gives its GRB word, whatever the top byte of the argument. */
  lemma PackColour(c: Colour, top: bv32)
    ensures ToGrb(RgbWord(c) | (top << 24)) == GrbWord(c)
  {
  }

  /** Swapping red and green twice restores the 24-bit colour. */
  lemma SwapInvolution(rgb: bv32)
    ensures ToGrb(ToGrb(rgb)) == rgb & 0xFF_FFFF
  {
  }
}

=== FILE: selftest.dfy ===
/** The rail self-test of `main.c`: `safe_test_voltage` accepts one rail sample, and
    `self_test` polls the reset, command and data rails until all three have been
    accepted or the deadline passes, then halts on the first rail still missing.

    The deadline is a poll budget: the loop may run once per element of `polls`,
    which holds the raw ADC results each pass would read. */
module SelfTest {

  import opened Options
  import opened Signal

  datatype Rail = Rst | Cmd | Dat

  /** The raw 12-bit ADC result each rail would give in one pass of the loop. */
  datatype Samples = Samples(rst: nat, cmd: nat, dat: nat)

  function Sample(s: Samples, x: Rail): nat
  {
    match x
    case Rst => s.rst
    case Cmd => s.cmd
    case Dat => s.dat
  }

  /** All three rails are checked against 1.8 V with a tolerance of 0.2 V. */
  const Target: real := 1.8
  const Range: real := 0.2

  /** The sample scaled to the 3.3 V reference over 12 bits (computed over the reals). */
  function Voltage(raw: nat): real
  {
    raw as real * 3.3 / 4096.0
  }

  predicate SafeTestVoltage(raw: nat, target: real, range: real)
  {
    Voltage(raw) >= target - range && Voltage(raw) <= target + range
  }

  predicate Accepted(s: Samples, x: Rail)
  {
    SafeTestVoltage(Sample(s, x), Target, Range)
  }

  /** The acceptance window in raw ADC counts, both ends included. */
  lemma AcceptWindow(raw: nat)
    ensures SafeTestVoltage(raw, Target, Range) <==> 1986 <= raw <= 2482
  {
  }

  // ---------------------------------------------------------------------------
  // The polling loop

  /** `check_mask`'s bit for each rail. */
  function RailBit(x: Rail): bv8
  {
    match x
    case Rst => 0x01
    case Cmd => 0x02
    case Dat => 0x04
  }

  const AllRails: bv8 := 0x07

  predicate Has(mask: bv8, x: Rail)
  {
    mask & RailBit(x) != 0
  }

  /** The state of the loop: the mask, the rails read so far in order, and the
      number of passes made. */
  datatype Check = Check(mask: bv8, readings: seq<Rail>, passes: nat)

  /** One rail within one pass: read only while its bit is clear, and its bit set
      if the reading is accepted. */
  function PollRail(mask: bv8, s: Samples, x: Rail): (bv8, seq<Rail>)
  {
    if !Has(mask, x) then (mask | (if Accepted(s, x) then RailBit(x) else 0), [x])
    else (mask, [])
  }

  /** One pass of the loop body: reset, command, data, in that order. */
  function PollOnce(mask: bv8, s: Samples): Check
  {
    var (m1, r1) := PollRail(mask, s, Rst);
    var (m2, r2) := PollRail(m1, s, Cmd);
    var (m3, r3) := PollRail(m2, s, Dat);
    Check(m3, r1 + r2 + r3, 1)
  }

  /** The loop from `mask`: it stops when the budget is spent or all three bits are
      set. The mask only gains bits, only rail bits, and the loop ends early only
      when every rail has been accepted. */
  function Loop(mask: bv8, polls: seq<Samples>): (r: Check)
    ensures r.mask & mask == mask
    ensures r.mask & !mask & !AllRails == 0
    ensures r.passes <= |polls|
    ensures r.passes < |polls| ==> r.mask == AllRails
    decreases |polls|
  {
    if |polls| == 0 || mask == AllRails then Check(mask, [], 0)
    else
      var c := PollOnce(mask, polls[0]);
      var rest := Loop(c.mask, polls[1..]);
      Check(rest.mask, c.readings + rest.readings, 1 + rest.passes)
  }

  function RailAt(i: nat): Rail
    requires i < 3
  {
    if i == 0 then Rst else if i == 1 then Cmd else Dat
  }

  /** What `self_test` does after the loop: halt with `(i, 2)` for the lowest rail
      `i` whose bit is clear, or return when all three are set. */
  function Verdict(mask: bv8): (r: Option<Code>)
    ensures r.None? <==> mask & AllRails == AllRails
    ensures r.Some? ==> r.value.bits == 2 && r.value.err < 3 && !Has(mask, RailAt(r.value.err))
    ensures r.Some? ==> forall i | 0 <= i < r.value.err :: Has(mask, RailAt(i))
  {
    if !Has(mask, Rst) then Some(Code(0, 2))
    else if !Has(mask, Cmd) then Some(Code(1, 2))
    else if !Has(mask, Dat) then Some(Code(2, 2))
    else None
  }

  /** `self_test`: the halt code it stops with, or `None` when it returns. */
  function Run(polls: seq<Samples>): Option<Code>
  {
    Verdict(Loop(0, polls).mask)
  }
}

=== FILE: selftest_properties.dfy ===
/** Properties of the rail self-test: which rails it reads and how often, when its
    loop stops, and which halt code it reports. */
module SelfTestProperties {

  import opened Options
  import opened Signal
  import opened SelfTest

  /** Some pass within the budget accepted rail `x`. */
  ghost predicate Passed(polls: seq<Samples>, x: Rail)
  {
    exists k | 0 <= k < |polls| :: Accepted(polls[k], x)
  }

  /** The passes up to and including the first that accepts `x`, or the whole budget. */
  function PollsUntil(polls: seq<Samples>, x: Rail): (n: nat)
    ensures n <= |polls|
  {
    if |polls| == 0 then 0
    else if Accepted(polls[0], x) then 1
    else 1 + PollsUntil(polls[1..], x)
  }

  /** The passes that still read `x` when the loop starts from `mask`. */
  function Pending(mask: bv8, polls: seq<Samples>, x: Rail): nat
  {
    if Has(mask, x) then 0 else PollsUntil(polls, x)
  }

  function Max3(a: nat, b: nat, c: nat): nat
  {
    if a >= b && a >= c then a else if b >= c then b else c
  }

  lemma BitsDistinct(mask: bv8, x: Rail, y: Rail)
    requires x != y
    ensures Has(mask | RailBit(x), y) == Has(mask, y)
    ensures (mask | RailBit(x)) & !AllRails == mask & !AllRails
  {
  }

  /** One rail within a pass reads it only if its bit is clear and changes no other bit. */
  lemma PollRailEffect(mask: bv8, s: Samples, x: Rail)
    ensures PollRail(mask, s, x).1 == if Has(mask, x) then [] else [x]
    ensures Has(PollRail(mask, s, x).0, x) <==> Has(mask, x) || Accepted(s, x)
    ensures forall y | y != x :: Has(PollRail(mask, s, x).0, y) == Has(mask, y)
    ensures PollRail(mask, s, x).0 & !AllRails == mask & !AllRails
  {
    forall y | y != x
      ensures Has(PollRail(mask, s, x).0, y) == Has(mask, y)
    {
      BitsDistinct(mask, x, y);
    }
    if !Has(mask, x) && Accepted(s, x) {
      assert Has(mask | RailBit(x), x);
      BitsDistinct(mask, x, if x == Rst then Cmd else Rst);
    }
  }

  /** The rails whose bit is clear, in reading order. */
  function Clear(mask: bv8): seq<Rail>
  {
    (if Has(mask, Rst) then [] else [Rst])
    + (if Has(mask, Cmd) then [] else [Cmd])
    + (if Has(mask, Dat) then [] else [Dat])
  }

  lemma ClearCount(mask: bv8, x: Rail)
    ensures multiset(Clear(mask))[x] == if Has(mask, x) then 0 else 1
  {
    var a: seq<Rail> := if Has(mask, Rst) then [] else [Rst];
    var b: seq<Rail> := if Has(mask, Cmd) then [] else [Cmd];
    var c: seq<Rail> := if Has(mask, Dat) then [] else [Dat];
    assert multiset(a + b + c) == multiset(a) + multiset(b) + multiset(c);
  }

  /** One pass reads each rail whose bit is clear, in order, sets the bits of the
      rails it accepts, and touches no other bit. */
  lemma PollOnceEffect(mask: bv8, s: Samples)
    ensures PollOnce(mask, s).readings == Clear(mask)
    ensures forall x :: Has(PollOnce(mask, s).mask, x) <==> Has(mask, x) || Accepted(s, x)
    ensures PollOnce(mask, s).mask & !AllRails == mask & !AllRails
  {
    var p1 := PollRail(mask, s, Rst);
    PollRailEffect(mask, s, Rst);
    var p2 := PollRail(p1.0, s, Cmd);
    PollRailEffect(p1.0, s, Cmd);
    var p3 := PollRail(p2.0, s, Dat);
    PollRailEffect(p2.0, s, Dat);
    var c := PollOnce(mask, s);
    assert c == Check(p3.0, p1.1 + p2.1 + p3.1, 1);
    assert Has(p1.0, Cmd) == Has(mask, Cmd) && Has(p2.0, Dat) == Has(mask, Dat);
    forall x
      ensures Has(c.mask, x) <==> Has(mask, x) || Accepted(s, x)
    {
      match x
      case Rst =>
      case Cmd =>
      case Dat =>
    }
  }

  lemma PassedStep(polls: seq<Samples>, x: Rail)
    requires |polls| > 0
    ensures Passed(polls, x) <==> Accepted(polls[0], x) || Passed(polls[1..], x)
  {
    if Passed(polls, x) && !Accepted(polls[0], x) {
      var k :| 0 <= k < |polls| && Accepted(polls[k], x);
      assert polls[1..][k - 1] == polls[k];
    }
    if Passed(polls[1..], x) {
      var k :| 0 <= k < |polls[1..]| && Accepted(polls[1..][k], x);
      assert polls[k + 1] == polls[1..][k];
    }
  }

  /** The passes that still read `x` after one pass from `mask`. */
  lemma PendingStep(mask: bv8, polls: seq<Samples>, x: Rail)
    requires |polls| > 0
    ensures Pending(mask, polls, x)
         == if Has(mask, x) then 0 else 1 + Pending(PollOnce(mask, polls[0]).mask, polls[1..], x)
  {
    PollOnceEffect(mask, polls[0]);
  }

  /** One pass of the loop, as far as rail `x`'s readings are concerned. */
  lemma ReadingsStep(mask: bv8, polls: seq<Samples>, x: Rail)
    requires mask & !AllRails == 0 && |polls| > 0 && mask != AllRails
    ensures var c := PollOnce(mask, polls[0]);
      && c.mask & !AllRails == 0
      && multiset(Loop(mask, polls).readings)[x]
         == (if Has(mask, x) then 0 else 1) + multiset(Loop(c.mask, polls[1..]).readings)[x]
  {
    var c := PollOnce(mask, polls[0]);
    PollOnceEffect(mask, polls[0]);
    ClearCount(mask, x);
    var rest := Loop(c.mask, polls[1..]);
    assert Loop(mask, polls).readings == c.readings + rest.readings;
    assert multiset(c.readings + rest.readings) == multiset(c.readings) + multiset(rest.readings);
  }

  /** Each rail is read on every pass until the first that accepts it, and never after. */
  lemma {:induction false} LoopReadings(mask: bv8, polls: seq<Samples>, x: Rail)
    requires mask & !AllRails == 0
    ensures multiset(Loop(mask, polls).readings)[x] == Pending(mask, polls, x)
    decreases |polls|
  {
    if |polls| == 0 {
    } else if mask == AllRails {
      assert Has(mask, x);
    } else {
      var c := PollOnce(mask, polls[0]);
      ReadingsStep(mask, polls, x);
      PendingStep(mask, polls, x);
      LoopReadings(c.mask, polls[1..], x);
    }
  }

  /** Rail `x` is known good before pass `k`: its bit was set on entry or one of
      the first `k` passes accepted it. */
  ghost predicate Seen(mask: bv8, polls: seq<Samples>, k: nat, x: Rail)
    requires k <= |polls|
  {
    Has(mask, x) || Passed(polls[..k], x)
  }

  /** The rails pass `k` reads: those not yet known good, in the order reset,
      command, data. */
  ghost function Unseen(mask: bv8, polls: seq<Samples>, k: nat): seq<Rail>
    requires k <= |polls|
  {
    (if Seen(mask, polls, k, Rst) then [] else [Rst])
    + (if Seen(mask, polls, k, Cmd) then [] else [Cmd])
    + (if Seen(mask, polls, k, Dat) then [] else [Dat])
  }

  /** The reads of passes `k` onward, pass by pass: a pass is made while the budget
      lasts and some rail is not yet known good. */
  ghost function Schedule(mask: bv8, polls: seq<Samples>, k: nat): seq<Rail>
    requires k <= |polls|
    decreases |polls| - k
  {
    if k == |polls| || (Seen(mask, polls, k, Rst) && Seen(mask, polls, k, Cmd) && Seen(mask, polls, k, Dat)) then []
    else Unseen(mask, polls, k) + Schedule(mask, polls, k + 1)
  }

  /** Pass `k + 1` from `mask` knows what pass `k` from the mask after the first
      pass knows. */
  lemma SeenShift(mask: bv8, m: bv8, polls: seq<Samples>, k: nat, x: Rail)
    requires k + 1 <= |polls|
    requires Has(m, x) <==> Has(mask, x) || Accepted(polls[0], x)
    ensures Seen(m, polls[1..], k, x) <==> Seen(mask, polls, k + 1, x)
  {
    PassedStep(polls[..k + 1], x);
    assert polls[..k + 1][1..] == polls[1..][..k];
  }

  lemma {:induction false} ScheduleShift(mask: bv8, m: bv8, polls: seq<Samples>, k: nat)
    requires k + 1 <= |polls|
    requires forall x :: Has(m, x) <==> Has(mask, x) || Accepted(polls[0], x)
    ensures Schedule(m, polls[1..], k) == Schedule(mask, polls, k + 1)
    decreases |polls| - k
  {
    SeenShift(mask, m, polls, k, Rst);
    SeenShift(mask, m, polls, k, Cmd);
    SeenShift(mask, m, polls, k, Dat);
    if k + 1 < |polls| {
      ScheduleShift(mask, m, polls, k + 1);
    }
  }

  /** The reads of the loop come pass by pass: pass `k` reads, in order, exactly the
      rails that neither the entry mask nor any of the first `k` passes accepted, and
      a pass is made while the budget lasts and some rail is still unaccepted. */
  lemma {:induction false} LoopSchedule(mask: bv8, polls: seq<Samples>)
    requires mask & !AllRails == 0
    ensures Loop(mask, polls).readings == Schedule(mask, polls, 0)
    decreases |polls|
  {
    if |polls| == 0 {
    } else if mask == AllRails {
      assert Has(mask, Rst) && Has(mask, Cmd) && Has(mask, Dat);
    } else {
      var c := PollOnce(mask, polls[0]);
      PollOnceEffect(mask, polls[0]);
      LoopSchedule(c.mask, polls[1..]);
      ScheduleShift(mask, c.mask, polls, 0);
      assert polls[..0] == [];
      assert !Has(mask, Rst) || !Has(mask, Cmd) || !Has(mask, Dat);
      assert Unseen(mask, polls, 0) == Clear(mask);
    }
  }

  /** The loop makes as many passes as the slowest rail needs. */
  lemma {:induction false} LoopPasses(mask: bv8, polls: seq<Samples>)
    requires mask & !AllRails == 0
    ensures Loop(mask, polls).passes
         == Max3(Pending(mask, polls, Rst), Pending(mask, polls, Cmd), Pending(mask, polls, Dat))
    decreases |polls|
  {
    if |polls| == 0 {
    } else if mask == AllRails {
      assert Has(mask, Rst) && Has(mask, Cmd) && Has(mask, Dat);
    } else {
      var c := PollOnce(mask, polls[0]);
      PollOnceEffect(mask, polls[0]);
      LoopPasses(c.mask, polls[1..]);
      PendingStep(mask, polls, Rst);
      PendingStep(mask, polls, Cmd);
      PendingStep(mask, polls, Dat);
      assert !Has(mask, Rst) || !Has(mask, Cmd) || !Has(mask, Dat);
      assert Has(mask, Rst) ==> Has(c.mask, Rst);
      assert Has(mask, Cmd) ==> Has(c.mask, Cmd);
      assert Has(mask, Dat) ==> Has(c.mask, Dat);
    }
  }

  /** A rail's bit ends up set exactly when some pass within the budget accepted it. */
  lemma {:induction false} LoopPassed(mask: bv8, polls: seq<Samples>)
    requires mask & !AllRails == 0
    ensures forall x :: Has(Loop(mask, polls).mask, x) <==> Has(mask, x) || Passed(polls, x)
    decreases |polls|
  {
    if |polls| == 0 {
    } else if mask == AllRails {
      assert forall x :: Has(mask, x);
    } else {
      var c := PollOnce(mask, polls[0]);
      PollOnceEffect(mask, polls[0]);
      LoopPassed(c.mask, polls[1..]);
      forall x
        ensures Passed(polls, x) <==> Accepted(polls[0], x) || Passed(polls[1..], x)
      {
        PassedStep(polls, x);
      }
    }
  }

  /** `self_test` halts with `(i, 2)` for the first rail, in the order reset, command,
      data, that no pass within the budget accepted, and returns only when every
      rail was accepted by some pass. */
  lemma RunOutcome(polls: seq<Samples>)
    ensures Run(polls)
         == if !Passed(polls, Rst) then Some(Code(0, 2))
            else if !Passed(polls, Cmd) then Some(Code(1, 2))
            else if !Passed(polls, Dat) then Some(Code(2, 2))
            else None
  {
    LoopPassed(0, polls);
  }
}

=== FILE: signal.dfy ===
/** The status-code blink encoder of `halt_with_error` (misc.c): an (err, bits) pair
    becomes a fixed sequence of indicator colours and pauses, the only channel by which
    the firmware reports an outcome. The pins, clocks and the final power-down that
    surround the blinking are hardware effects and are not events here. */
module Signal {

  import opened Pixel

  /** A 32-bit unsigned machine word, as `uint32_t`. */
  type u32 = x: int | 0 <= x < 0x1_0000_0000

  // Timing constants in milliseconds, derived from one base unit as the firmware does.
  const BlinkTime: nat := 500
  const ShortTime: nat := BlinkTime * 2 / 10
  const ShortPauseTime: nat := (BlinkTime - ShortTime) / 2
  const LongTime: nat := BlinkTime * 8 / 10
  const LongPauseTime: nat := (BlinkTime - LongTime) / 2
  const PauseBetween: nat := 1500
  const PauseBefore: nat := 500
  const CodeRepeats: nat := 3

  /** A status code: the value `err` shown in `bits` pulses. */
  datatype Code = Code(err: nat, bits: nat)

  /** What the encoder does to the indicator: set a colour, or wait. */
  datatype Event = SetPixel(colour: bv32) | Sleep(ms: nat)

  /** What an observer sees: one lit period of the indicator. */
  datatype Flash = Flash(colour: bv32, ms: nat)

  lemma TimingConstants()
    ensures ShortTime == 100 && ShortPauseTime == 200
    ensures LongTime == 400 && LongPauseTime == 50
    ensures PauseBetween == 1500 && PauseBefore == 500 && CodeRepeats == 3
    ensures ShortPauseTime + ShortTime + ShortPauseTime == BlinkTime
    ensures LongPauseTime + LongTime + LongPauseTime == BlinkTime
  {
  }

  // ---------------------------------------------------------------------------
  // Bits of the code

  /** `x >> k`. */
  function Shr(x: nat, k: nat): nat
  {
    if k == 0 then x else Shr(x / 2, k - 1)
  }

  /** Whether `x & (1 << k)` is non-zero. */
  predicate Bit(x: nat, k: nat)
  {
    Shr(x, k) % 2 == 1
  }

  function Pow2(k: nat): (r: nat)
    ensures r >= 1
  {
    if k == 0 then 1 else 2 * Pow2(k - 1)
  }

  // ---------------------------------------------------------------------------
  // The encoder

  /** The events of pulse `i` (counted from the most significant of `bits` bits)
      in repeat `j`. */
  function Pulse(err: nat, bits: nat, i: nat, j: nat): seq<Event>
    requires i < bits
  {
    var long := Bit(err, bits - 1 - i);
    var pause := if long then LongPauseTime else ShortPauseTime;
    var success := bits == 1 && !long;
    [Sleep(pause),
     SetPixel(if success then PixWhi else PixRed),
     Sleep(if long then LongTime else if success then ShortTime * 2 else ShortTime),
     SetPixel(Off)]
    + (if i != bits - 1 || j != CodeRepeats - 1 then [Sleep(pause)] else [])
    + (if i == bits - 1 && j != CodeRepeats - 1 then [Sleep(PauseBetween)] else [])
  }

  /** Pulses `i` to `bits - 1` of repeat `j`. */
  function PulsesFrom(err: nat, bits: nat, i: nat, j: nat): seq<Event>
    decreases bits - i
  {
    if i >= bits then [] else Pulse(err, bits, i, j) + PulsesFrom(err, bits, i + 1, j)
  }

  /** Repeats `j` to `CodeRepeats - 1`; a one-bit code leaves the loop after its
      first repeat. */
  function RepeatsFrom(err: nat, bits: nat, j: nat): seq<Event>
    decreases CodeRepeats - j
  {
    if j >= CodeRepeats then []
    else PulsesFrom(err, bits, 0, j) + (if bits == 1 then [] else RepeatsFrom(err, bits, j + 1))
  }

  /** The dark lead-in that announces a code of any width but one. */
  function LeadIn(bits: nat): seq<Event>
  {
    if bits != 1 then [SetPixel(Off), Sleep(PauseBefore)] else []
  }

  /** The indicator events of `halt_with_error(err, bits)`. The shift `1 << (bits - i - 1)`
      is only defined for `bits <= 32`. */
  function Blink(err: u32, bits: u32): (r: seq<Event>)
    requires bits <= 32
    ensures |r| >= 2
    ensures (bits != 1) <==> r[..2] == [SetPixel(Off), Sleep(PauseBefore)]
  {
    var r := LeadIn(bits) + RepeatsFrom(err, bits, 0);
    assert bits == 1 ==> |r| >= 2 && r[0].Sleep? by {
      if bits == 1 {
        assert r == RepeatsFrom(err, bits, 0);
        assert RepeatsFrom(err, bits, 0) == Pulse(err, bits, 0, 0) + PulsesFrom(err, bits, 1, 0);
        assert r[0] == Pulse(err, bits, 0, 0)[0];
      }
    }
    assert bits != 1 ==> r[..2] == [SetPixel(Off), Sleep(PauseBefore)] by {
      if bits != 1 {
        assert r[0] == SetPixel(Off) && r[1] == Sleep(PauseBefore);
      }
    }
    r
  }

  // ---------------------------------------------------------------------------
  // The observer's side: flashes, durations and decoding

  predicate Lit(e: Event)
  {
    e.SetPixel? && e.colour != Off
  }

  /** The lit periods of an event sequence: a lit colour followed by a wait. */
  function Flashes(evs: seq<Event>): seq<Flash>
  {
    if |evs| < 2 then []
    else if Lit(evs[0]) && evs[1].Sleep? then [Flash(evs[0].colour, evs[1].ms)] + Flashes(evs[2..])
    else Flashes(evs[1..])
  }

  /** A sequence that does not end by lighting the indicator, so appending to it
      cannot merge a flash across the seam. */
  predicate Closed(evs: seq<Event>)
  {
    |evs| == 0 || !Lit(evs[|evs| - 1])
  }

  /** Total time spent waiting. */
  function Duration(evs: seq<Event>): nat
  {
    if |evs| == 0 then 0
    else (if evs[0].Sleep? then evs[0].ms else 0) + Duration(evs[1..])
  }

  /** The number read off flashes, most significant first, where a
      long flash is a one. */
  function Value(fs: seq<Flash>): nat
  {
    if |fs| == 0 then 0
    else 2 * Value(fs[..|fs| - 1]) + (if fs[|fs| - 1].ms == LongTime then 1 else 0)
  }

  /** Reads a status code back from the indicator: a code announced by a blank
      lead-in is shown `CodeRepeats` times and its width is a third of the flashes;
      otherwise it is a one-shot code of one flash. */
  function Decode(evs: seq<Event>): Code
  {
    var fs := Flashes(evs);
    if |evs| > 0 && evs[0] == SetPixel(Off) then
      var n := |fs| / CodeRepeats;
      Code(Value(fs[..n]), n)
    else
      Code(Value(fs[..if |fs| > 0 then 1 else 0]), 1)
  }

  /** The flash that shows one bit: long and red for a one, short and red for a
      zero, and for a one-bit code a zero is the double-length white success flash. */
  function FlashFor(long: bool, oneShot: bool): Flash
  {
    if long then Flash(PixRed, LongTime)
    else if oneShot then Flash(PixWhi, 2 * ShortTime)
    else Flash(PixRed, ShortTime)
  }

  /** The flashes of one repeat of the code, most significant bit first. */
  function CodeFlashes(err: nat, bits: nat): (fs: seq<Flash>)
    ensures |fs| == bits
  {
    seq(bits, k requires 0 <= k < bits => FlashFor(Bit(err, bits - 1 - k), bits == 1))
  }

  /** `n` copies of `s` one after another. */
  function Times<T>(s: seq<T>, n: nat): (r: seq<T>)
    ensures |r| == n * |s|
  {
    if n == 0 then [] else s + Times(s, n - 1)
  }
}

=== FILE: signal_properties.dfy ===
/** Properties of the blink encoder: what an observer reads off the indicator, how
    long the signal lasts, and the shape of one-shot and repeated codes. */
module SignalProperties {

  import opened Pixel
  import opened Signal

  // ---------------------------------------------------------------------------
  // Arithmetic on bits

  lemma {:induction false} ShrStep(x: nat, k: nat)
    ensures Shr(x, k + 1) == Shr(x, k) / 2
    decreases k
  {
    if k > 0 {
      ShrStep(x / 2, k - 1);
    }
  }

  lemma DivModUnique(a: int, d: int, q: int, r: int)
    requires d > 0 && 0 <= r < d && a == d * q + r
    ensures a / d == q && a % d == r
  {
    var q' := a / d;
    assert a == d * q' + a % d;
    if q' > q {
      MulMono(d, q + 1, q');
      assert false;
    } else if q' < q {
      MulMono(d, q' + 1, q);
      assert false;
    }
  }

  lemma MulMono(d: int, x: int, y: int)
    requires d > 0 && x <= y
    ensures d * x <= d * y
  {
  }

  /** Taking one more low bit: `x mod 2p` is twice `(x / 2) mod p` plus the lowest bit. */
  lemma ModStep(x: nat, p: nat)
    requires p > 0
    ensures x % (2 * p) == 2 * ((x / 2) % p) + x % 2
  {
    var q, r := (x / 2) / p, (x / 2) % p;
    assert x / 2 == p * q + r;
    assert x == (2 * p) * q + (2 * r + x % 2);
    DivModUnique(x, 2 * p, q, 2 * r + x % 2);
  }

  // ---------------------------------------------------------------------------
  // Flashes of the encoder's output

  lemma ClosedAppend(a: seq<Event>, b: seq<Event>)
    requires Closed(a) && Closed(b)
    ensures Closed(a + b)
  {
    if |b| == 0 {
      assert a + b == a;
    }
  }

  /** Flashes of a concatenation are the concatenated flashes when the first part
      leaves the indicator dark. */
  lemma {:induction false} FlashesAppend(a: seq<Event>, b: seq<Event>)
    requires Closed(a)
    ensures Flashes(a + b) == Flashes(a) + Flashes(b)
    decreases |a|
  {
    if |a| == 0 {
      assert a + b == b;
    } else if |a| >= 2 && Lit(a[0]) && a[1].Sleep? {
      var ab := a + b;
      assert ab[0] == a[0] && ab[1] == a[1];
      assert Flashes(ab) == [Flash(a[0].colour, a[1].ms)] + Flashes(ab[2..]);
      assert ab[2..] == a[2..] + b;
      FlashesAppend(a[2..], b);
    } else if |a| == 1 {
      var ab := a + b;
      assert !Lit(a[0]);
      if |b| == 0 {
        assert ab == a;
      } else {
        assert ab[0] == a[0];
        assert Flashes(ab) == Flashes(ab[1..]);
        assert ab[1..] == b;
      }
    } else {
      var ab := a + b;
      assert ab[0] == a[0] && ab[1] == a[1];
      assert Flashes(ab) == Flashes(ab[1..]);
      assert ab[1..] == a[1..] + b;
      FlashesAppend(a[1..], b);
    }
  }

  /** Each pulse shows exactly one flash, the one for its bit. */
  lemma PulseFlash(err: nat, bits: nat, i: nat, j: nat)
    requires i < bits
    ensures Flashes(Pulse(err, bits, i, j)) == [FlashFor(Bit(err, bits - 1 - i), bits == 1)]
    ensures Closed(Pulse(err, bits, i, j))
  {
    var p := Pulse(err, bits, i, j);
    var tail := p[3..];
    assert forall k :: 0 <= k < |tail| ==> !Lit(tail[k]);
    assert Flashes(tail) == [] by {
      assert tail[0] == SetPixel(Off);
      if |tail| >= 2 {
        assert Flashes(tail[1..]) == [] by {
          if |tail| >= 3 {
            assert Flashes(tail[2..]) == [];
          }
        }
      }
    }
    assert Flashes(p) == Flashes(p[1..]);
    assert p[1..][2..] == tail;
  }

  lemma {:induction false} PulsesFromFlashes(err: nat, bits: nat, i: nat, j: nat)
    requires i <= bits
    ensures Flashes(PulsesFrom(err, bits, i, j)) == CodeFlashes(err, bits)[i..]
    ensures Closed(PulsesFrom(err, bits, i, j))
    decreases bits - i
  {
    if i < bits {
      PulseFlash(err, bits, i, j);
      PulsesFromFlashes(err, bits, i + 1, j);
      FlashesAppend(Pulse(err, bits, i, j), PulsesFrom(err, bits, i + 1, j));
      ClosedAppend(Pulse(err, bits, i, j), PulsesFrom(err, bits, i + 1, j));
      var cf := CodeFlashes(err, bits);
      assert cf[i..] == [cf[i]] + cf[i + 1..];
    }
  }

  lemma {:induction false} RepeatsFromFlashes(err: nat, bits: nat, j: nat)
    requires j <= CodeRepeats
    ensures Flashes(RepeatsFrom(err, bits, j))
         == Times(CodeFlashes(err, bits), if j == CodeRepeats then 0 else if bits == 1 then 1 else CodeRepeats - j)
    ensures Closed(RepeatsFrom(err, bits, j))
    decreases CodeRepeats - j
  {
    if j < CodeRepeats {
      PulsesFromFlashes(err, bits, 0, j);
      var rest := if bits == 1 then [] else RepeatsFrom(err, bits, j + 1);
      if bits != 1 {
        RepeatsFromFlashes(err, bits, j + 1);
      }
      FlashesAppend(PulsesFrom(err, bits, 0, j), rest);
      ClosedAppend(PulsesFrom(err, bits, 0, j), rest);
      assert CodeFlashes(err, bits)[0..] == CodeFlashes(err, bits);
    }
  }

  /** The lead-in shows nothing and leaves the indicator dark. */
  lemma LeadInDark(bits: nat)
    ensures Flashes(LeadIn(bits)) == [] && Closed(LeadIn(bits))
  {
    if bits != 1 {
      assert Flashes(LeadIn(bits)) == Flashes(LeadIn(bits)[1..]);
    }
  }

  /** The indicator shows the code's flashes, most significant bit first, three
      times over; a one-bit code shows its single flash once. */
  lemma BlinkFlashes(err: u32, bits: u32)
    requires bits <= 32
    ensures Flashes(Blink(err, bits)) == Times(CodeFlashes(err, bits), if bits == 1 then 1 else CodeRepeats)
  {
    var rest := RepeatsFrom(err, bits, 0);
    assert Flashes(rest) == Times(CodeFlashes(err, bits), if bits == 1 then 1 else CodeRepeats) by {
      RepeatsFromFlashes(err, bits, 0);
    }
    assert Flashes(LeadIn(bits) + rest) == Flashes(rest) by {
      LeadInDark(bits);
      FlashesAppend(LeadIn(bits), rest);
    }
  }

  /** Reading the first `m` flashes of a repeat gives the top `m` of the code's bits. */
  lemma {:induction false} ValuePrefix(err: nat, bits: nat, m: nat)
    requires m <= bits
    ensures Value(CodeFlashes(err, bits)[..m]) == Shr(err, bits - m) % Pow2(m)
  {
    if m > 0 {
      var cf := CodeFlashes(err, bits);
      ValuePrefix(err, bits, m - 1);
      assert cf[..m][..m - 1] == cf[..m - 1];
      var x := Shr(err, bits - m);
      ShrStep(err, bits - m);
      ModStep(x, Pow2(m - 1));
      assert cf[m - 1] == FlashFor(Bit(err, bits - m), bits == 1);
    }
  }

  /** Decoding the indicator recovers the code: its width, and its value reduced to
      that many bits. */
  lemma DecodeBlink(err: u32, bits: u32)
    requires bits <= 32
    ensures Decode(Blink(err, bits)) == Code(err % Pow2(bits), bits)
  {
    var evs := Blink(err, bits);
    var cf := CodeFlashes(err, bits);
    BlinkFlashes(err, bits);
    ValuePrefix(err, bits, bits);
    assert cf[..bits] == cf;
    if bits == 1 {
      assert evs[0] != SetPixel(Off);
      assert Times(cf, 1) == cf;
    } else {
      assert evs[0] == SetPixel(Off);
      assert Times(cf, CodeRepeats)[..bits] == cf;
    }
  }

  /** Distinct codes, each within its width, blink differently. */
  lemma BlinkInjective(err1: u32, bits1: u32, err2: u32, bits2: u32)
    requires bits1 <= 32 && bits2 <= 32
    requires err1 < Pow2(bits1) && err2 < Pow2(bits2)
    requires Blink(err1, bits1) == Blink(err2, bits2)
    ensures err1 == err2 && bits1 == bits2
  {
    DecodeBlink(err1, bits1);
    DecodeBlink(err2, bits2);
    DivModUnique(err1, Pow2(bits1), 0, err1);
    DivModUnique(err2, Pow2(bits2), 0, err2);
  }

  // ---------------------------------------------------------------------------
  // Durations

  lemma {:induction false} DurationAppend(a: seq<Event>, b: seq<Event>)
    ensures Duration(a + b) == Duration(a) + Duration(b)
    decreases |a|
  {
    if |a| == 0 {
      assert a + b == b;
    } else {
      assert (a + b)[1..] == a[1..] + b;
      DurationAppend(a[1..], b);
    }
  }

  lemma DurationCons(e: Event, s: seq<Event>)
    ensures Duration([e] + s) == (if e.Sleep? then e.ms else 0) + Duration(s)
  {
    assert ([e] + s)[1..] == s;
  }

  /** The pause that closes the last pulse of a repeat, which encodes the lowest bit. */
  function TrailPause(err: nat): nat
  {
    if err % 2 == 1 then LongPauseTime else ShortPauseTime
  }

  /** In a code of two or more bits every pulse with its two pauses lasts one base
      unit, except that the very last pulse drops its closing pause and the last
      pulse of the other repeats adds the gap. */
  lemma PulseDuration(err: nat, bits: nat, i: nat, j: nat)
    requires 2 <= bits && i < bits && j < CodeRepeats
    ensures Duration(Pulse(err, bits, i, j))
         == BlinkTime
            + (if i == bits - 1 && j != CodeRepeats - 1 then PauseBetween else 0)
            - (if i == bits - 1 && j == CodeRepeats - 1 then TrailPause(err) else 0)
  {
    var long := Bit(err, bits - 1 - i);
    var pause := if long then LongPauseTime else ShortPauseTime;
    var on := if long then LongTime else ShortTime;
    var head: seq<Event> := [Sleep(pause), SetPixel(PixRed), Sleep(on), SetPixel(Off)];
    var mid: seq<Event> := if i != bits - 1 || j != CodeRepeats - 1 then [Sleep(pause)] else [];
    var gap: seq<Event> := if i == bits - 1 && j != CodeRepeats - 1 then [Sleep(PauseBetween)] else [];
    assert Pulse(err, bits, i, j) == head + mid + gap;
    assert Duration(head + mid + gap) == Duration(head) + Duration(mid) + Duration(gap) by {
      DurationAppend(head + mid, gap);
      DurationAppend(head, mid);
    }
    assert Duration(head) == pause + on by {
      DurationCons(Sleep(on), [SetPixel(Off)]);
      DurationCons(SetPixel(PixRed), [Sleep(on), SetPixel(Off)]);
      DurationCons(Sleep(pause), [SetPixel(PixRed), Sleep(on), SetPixel(Off)]);
    }
    assert Duration(mid) == if i != bits - 1 || j != CodeRepeats - 1 then pause else 0 by {
      if |mid| > 0 {
        DurationCons(Sleep(pause), []);
      }
    }
    assert Duration(gap) == if i == bits - 1 && j != CodeRepeats - 1 then PauseBetween else 0 by {
      if |gap| > 0 {
        DurationCons(Sleep(PauseBetween), []);
      }
    }
    assert i == bits - 1 ==> pause == TrailPause(err) by {
      assert Bit(err, 0) == (err % 2 == 1);
    }
  }

  lemma {:induction false} PulsesFromDuration(err: nat, bits: nat, i: nat, j: nat)
    requires 2 <= bits && i <= bits && j < CodeRepeats
    ensures Duration(PulsesFrom(err, bits, i, j))
         == BlinkTime * (bits - i)
            + (if i < bits then (if j != CodeRepeats - 1 then PauseBetween as int else -(TrailPause(err) as int)) else 0)
    decreases bits - i
  {
    if i < bits {
      PulseDuration(err, bits, i, j);
      PulsesFromDuration(err, bits, i + 1, j);
      DurationAppend(Pulse(err, bits, i, j), PulsesFrom(err, bits, i + 1, j));
    }
  }

  lemma {:induction false} RepeatsFromDuration(err: nat, bits: nat, j: nat)
    requires 2 <= bits && j <= CodeRepeats
    ensures Duration(RepeatsFrom(err, bits, j))
         == (CodeRepeats - j) * BlinkTime * bits
            + (if j < CodeRepeats then (CodeRepeats - 1 - j) * PauseBetween - TrailPause(err) else 0)
    decreases CodeRepeats - j
  {
    if j < CodeRepeats {
      PulsesFromDuration(err, bits, 0, j);
      RepeatsFromDuration(err, bits, j + 1);
      DurationAppend(PulsesFrom(err, bits, 0, j), RepeatsFrom(err, bits, j + 1));
    }
  }

  /** The whole signal lasts a fixed time determined by the code alone: the lead-in,
      one base unit per pulse per repeat and the two gaps, less the pause the final
      pulse leaves out; a one-shot code shows its flash, its closing pause and one gap. */
  lemma BlinkDuration(err: u32, bits: u32)
    requires bits <= 32
    ensures Duration(Blink(err, bits))
         == if bits == 0 then PauseBefore
            else if bits == 1 then (if err % 2 == 1 then 2000 else 2100)
            else PauseBefore + CodeRepeats * BlinkTime * bits + 2 * PauseBetween - TrailPause(err)
  {
    if bits == 1 {
      OneShotDuration(err);
    } else {
      var rest := RepeatsFrom(err, bits, 0);
      assert Duration(Blink(err, bits)) == PauseBefore + Duration(rest) by {
        DurationAppend(LeadIn(bits), rest);
      }
      if bits == 0 {
        assert rest == [] by {
          assert RepeatsFrom(err, bits, 2) == [];
          assert RepeatsFrom(err, bits, 1) == [];
        }
      } else {
        RepeatsFromDuration(err, bits, 0);
      }
    }
  }

  lemma OneShotDuration(err: u32)
    ensures Duration(Blink(err, 1)) == if err % 2 == 1 then 2000 else 2100
  {
    OneShot(err);
    if err % 2 == 1 {
      FlashDuration(LongPauseTime, PixRed, LongTime, LongPauseTime, PauseBetween);
    } else {
      FlashDuration(ShortPauseTime, PixWhi, 2 * ShortTime, ShortPauseTime, PauseBetween);
    }
  }

  /** A single flash between two pauses and followed by a gap lasts its waits. */
  lemma FlashDuration(before: nat, c: bv32, on: nat, after: nat, gap: nat)
    ensures Duration([Sleep(before), SetPixel(c), Sleep(on), SetPixel(Off), Sleep(after), Sleep(gap)])
         == before + on + after + gap
  {
    DurationCons(Sleep(gap), []);
    DurationCons(Sleep(after), [Sleep(gap)]);
    DurationCons(SetPixel(Off), [Sleep(after), Sleep(gap)]);
    DurationCons(Sleep(on), [SetPixel(Off), Sleep(after), Sleep(gap)]);
    DurationCons(SetPixel(c), [Sleep(on), SetPixel(Off), Sleep(after), Sleep(gap)]);
    DurationCons(Sleep(before), [SetPixel(c), Sleep(on), SetPixel(Off), Sleep(after), Sleep(gap)]);
  }

  // ---------------------------------------------------------------------------
  // Shape of the signal

  /** A one-bit code has no lead-in and runs once, but as the first of three repeats
      it still closes with its pause and the inter-repeat gap. A zero is the white
      success flash of twice the short time; a one is a long red flash. */
  lemma OneShot(err: u32)
    ensures Blink(err, 1)
         == if err % 2 == 1 then
              [Sleep(LongPauseTime), SetPixel(PixRed), Sleep(LongTime), SetPixel(Off),
               Sleep(LongPauseTime), Sleep(PauseBetween)]
            else
              [Sleep(ShortPauseTime), SetPixel(PixWhi), Sleep(2 * ShortTime), SetPixel(Off),
               Sleep(ShortPauseTime), Sleep(PauseBetween)]
  {
    assert RepeatsFrom(err, 1, 0) == Pulse(err, 1, 0, 0) + PulsesFrom(err, 1, 1, 0);
    assert Bit(err, 0) == (err % 2 == 1);
  }

  /** Every lit colour is held for one wait and then switched off. */
  ghost predicate Blanked(evs: seq<Event>)
  {
    forall k | 0 <= k < |evs| && Lit(evs[k]) :: k + 2 < |evs| && evs[k + 1].Sleep? && evs[k + 2] == SetPixel(Off)
  }

  lemma BlankedAppend(a: seq<Event>, b: seq<Event>)
    requires Blanked(a) && Blanked(b)
    ensures Blanked(a + b)
  {
    var ab := a + b;
    forall k | 0 <= k < |ab| && Lit(ab[k])
      ensures k + 2 < |ab| && ab[k + 1].Sleep? && ab[k + 2] == SetPixel(Off)
    {
      if k < |a| {
        assert Lit(a[k]);
      } else {
        assert ab[k] == b[k - |a|];
      }
    }
  }

  lemma {:induction false} PulsesFromBlanked(err: nat, bits: nat, i: nat, j: nat)
    ensures Blanked(PulsesFrom(err, bits, i, j))
    decreases bits - i
  {
    if i < bits {
      var p := Pulse(err, bits, i, j);
      assert forall k | 0 <= k < |p| && k != 1 :: !Lit(p[k]);
      PulsesFromBlanked(err, bits, i + 1, j);
      BlankedAppend(p, PulsesFrom(err, bits, i + 1, j));
    }
  }

  lemma {:induction false} RepeatsFromBlanked(err: nat, bits: nat, j: nat)
    ensures Blanked(RepeatsFrom(err, bits, j))
    decreases CodeRepeats - j
  {
    if j < CodeRepeats {
      PulsesFromBlanked(err, bits, 0, j);
      if bits != 1 {
        RepeatsFromBlanked(err, bits, j + 1);
        BlankedAppend(PulsesFrom(err, bits, 0, j), RepeatsFrom(err, bits, j + 1));
      } else {
        assert PulsesFrom(err, bits, 0, j) + [] == PulsesFrom(err, bits, 0, j);
      }
    }
  }

  /** The indicator is switched off after every flash. */
  lemma BlinkBlanked(err: u32, bits: u32)
    requires bits <= 32
    ensures Blanked(Blink(err, bits))
  {
    RepeatsFromBlanked(err, bits, 0);
    BlankedAppend(LeadIn(bits), RepeatsFrom(err, bits, 0));
  }

  /** The pause that brackets a pulse of on-time `on`: long pulses are set off by the
      short 50 ms pause, every other pulse by 200 ms. */
  function PauseFor(on: nat): (p: nat)
    ensures p + on + p == BlinkTime <==> on == LongTime || on == ShortTime
  {
    if on == LongTime then LongPauseTime else ShortPauseTime
  }

  /** Every lit colour is preceded by the pause that matches its on-time, and,
      unless it is the last event but two, is followed after its switch-off by
      that same pause. */
  ghost predicate Paused(evs: seq<Event>)
  {
    forall k | 0 <= k < |evs| && Lit(evs[k]) ::
      && 1 <= k && k + 1 < |evs| && evs[k + 1].Sleep?
      && evs[k - 1] == Sleep(PauseFor(evs[k + 1].ms))
      && (k + 3 < |evs| ==> evs[k + 3] == Sleep(PauseFor(evs[k + 1].ms)))
  }

  /** No lit colour sits among the last three events, so the closing pause of each
      flash is inside the sequence. */
  ghost predicate Open(evs: seq<Event>)
  {
    forall k | 0 <= k < |evs| && Lit(evs[k]) :: k + 3 < |evs|
  }

  lemma PausedAppend(a: seq<Event>, b: seq<Event>)
    requires Paused(a) && Paused(b) && (|b| > 0 ==> Open(a))
    ensures Paused(a + b)
  {
    var ab := a + b;
    forall k | 0 <= k < |ab| && Lit(ab[k])
      ensures && 1 <= k && k + 1 < |ab| && ab[k + 1].Sleep?
              && ab[k - 1] == Sleep(PauseFor(ab[k + 1].ms))
              && (k + 3 < |ab| ==> ab[k + 3] == Sleep(PauseFor(ab[k + 1].ms)))
    {
      if k < |a| {
        assert Lit(a[k]);
        assert ab[k - 1] == a[k - 1] && ab[k + 1] == a[k + 1];
        if k + 3 < |ab| {
          if |b| > 0 {
            assert ab[k + 3] == a[k + 3];
          }
        }
      } else {
        assert ab[k] == b[k - |a|];
        assert Lit(b[k - |a|]);
      }
    }
  }

  lemma OpenAppend(a: seq<Event>, b: seq<Event>)
    requires Open(a) && Open(b)
    ensures Open(a + b)
  {
    var ab := a + b;
    forall k | 0 <= k < |ab| && Lit(ab[k])
      ensures k + 3 < |ab|
    {
      if k < |a| {
        assert Lit(a[k]);
      } else {
        assert ab[k] == b[k - |a|];
      }
    }
  }

  /** One pulse sets its flash off by the matching pause on each side; the closing
      pause is there unless the pulse ends the code. */
  lemma PulsePaused(err: nat, bits: nat, i: nat, j: nat)
    requires i < bits
    ensures Paused(Pulse(err, bits, i, j))
    ensures i != bits - 1 || j != CodeRepeats - 1 ==> Open(Pulse(err, bits, i, j))
  {
    var p := Pulse(err, bits, i, j);
    assert forall k | 0 <= k < |p| && k != 1 :: !Lit(p[k]);
  }

  lemma {:induction false} PulsesFromPaused(err: nat, bits: nat, i: nat, j: nat)
    ensures Paused(PulsesFrom(err, bits, i, j))
    ensures j != CodeRepeats - 1 ==> Open(PulsesFrom(err, bits, i, j))
    decreases bits - i
  {
    if i < bits {
      var p, q := Pulse(err, bits, i, j), PulsesFrom(err, bits, i + 1, j);
      PulsePaused(err, bits, i, j);
      PulsesFromPaused(err, bits, i + 1, j);
      PausedAppend(p, q);
      if j != CodeRepeats - 1 {
        OpenAppend(p, q);
      }
    }
  }

  lemma {:induction false} RepeatsFromPaused(err: nat, bits: nat, j: nat)
    ensures Paused(RepeatsFrom(err, bits, j))
    decreases CodeRepeats - j
  {
    if j < CodeRepeats {
      PulsesFromPaused(err, bits, 0, j);
      if bits != 1 {
        RepeatsFromPaused(err, bits, j + 1);
        PausedAppend(PulsesFrom(err, bits, 0, j), RepeatsFrom(err, bits, j + 1));
      } else {
        assert PulsesFrom(err, bits, 0, j) + [] == PulsesFrom(err, bits, 0, j);
      }
    }
  }

  /** Each flash of a code sits between two equal pauses, 50 ms around a long flash
      and 200 ms around any other; only the final flash of a code shown three times
      lacks the closing one. */
  lemma BlinkPaused(err: u32, bits: u32)
    requires bits <= 32
    ensures Paused(Blink(err, bits))
  {
    RepeatsFromPaused(err, bits, 0);
    PausedAppend(LeadIn(bits), RepeatsFrom(err, bits, 0));
  }

  /** The last event of a repeat: the gap after every repeat but the last, and the
      switch-off of the final pulse, with no closing pause, after the last one. */
  lemma {:induction false} PulsesFromLast(err: nat, bits: nat, i: nat, j: nat)
    requires i < bits && j < CodeRepeats
    ensures var r := PulsesFrom(err, bits, i, j);
      |r| > 0 && r[|r| - 1] == if j != CodeRepeats - 1 then Sleep(PauseBetween) else SetPixel(Off)
    decreases bits - i
  {
    if i + 1 < bits {
      PulsesFromLast(err, bits, i + 1, j);
    } else {
      assert PulsesFrom(err, bits, i, j) == Pulse(err, bits, i, j) + [];
    }
  }

  /** A pulse carries the gap only when it ends a repeat other than the last. */
  lemma PulseGaps(err: nat, bits: nat, i: nat, j: nat)
    requires i < bits
    ensures multiset(Pulse(err, bits, i, j))[Sleep(PauseBetween)]
         == if i == bits - 1 && j != CodeRepeats - 1 then 1 else 0
  {
    var p := Pulse(err, bits, i, j);
    var head, mid, gap := PulseParts(err, bits, i, j);
    assert multiset(p)[Sleep(PauseBetween)]
        == multiset(head)[Sleep(PauseBetween)] + multiset(mid)[Sleep(PauseBetween)]
           + multiset(gap)[Sleep(PauseBetween)] by {
      assert multiset(head + mid + gap) == multiset(head) + multiset(mid) + multiset(gap);
    }
    assert multiset(head)[Sleep(PauseBetween)] == 0 by {
      assert Sleep(PauseBetween) !in head;
    }
    assert multiset(mid)[Sleep(PauseBetween)] == 0 by {
      assert Sleep(PauseBetween) !in mid;
    }
  }

  /** A pulse in three parts: the lit period with its opening pause, the closing
      pause, and the gap. */
  lemma PulseParts(err: nat, bits: nat, i: nat, j: nat) returns (head: seq<Event>, mid: seq<Event>, gap: seq<Event>)
    requires i < bits
    ensures Pulse(err, bits, i, j) == head + mid + gap
    ensures |head| == 4 && forall e | e in head :: e.SetPixel? || e.ms <= LongTime
    ensures forall e | e in mid :: e.Sleep? && e.ms <= ShortPauseTime
    ensures gap == if i == bits - 1 && j != CodeRepeats - 1 then [Sleep(PauseBetween)] else []
  {
    var long := Bit(err, bits - 1 - i);
    var pause := if long then LongPauseTime else ShortPauseTime;
    head := [Sleep(pause), SetPixel(if bits == 1 && !long then PixWhi else PixRed),
      Sleep(if long then LongTime else if bits == 1 && !long then ShortTime * 2 else ShortTime), SetPixel(Off)];
    mid := if i != bits - 1 || j != CodeRepeats - 1 then [Sleep(pause)] else [];
    gap := if i == bits - 1 && j != CodeRepeats - 1 then [Sleep(PauseBetween)] else [];
  }

  /** The gaps of one repeat: one after it unless it is the last. */
  lemma {:induction false} PulsesFromGaps(err: nat, bits: nat, i: nat, j: nat)
    requires i <= bits && j < CodeRepeats
    ensures multiset(PulsesFrom(err, bits, i, j))[Sleep(PauseBetween)]
         == if i < bits && j != CodeRepeats - 1 then 1 else 0
    decreases bits - i
  {
    if i < bits {
      PulsesFromGaps(err, bits, i + 1, j);
      PulseGaps(err, bits, i, j);
      var p, q := Pulse(err, bits, i, j), PulsesFrom(err, bits, i + 1, j);
      assert multiset(p + q) == multiset(p) + multiset(q);
    }
  }

  /** A code of two or more bits opens with the dark lead-in, shows three repeats
      with a gap after each but the last, and ends on the switch-off of its final
      pulse with no closing pause. */
  lemma MultiBitShape(err: u32, bits: u32)
    requires 2 <= bits <= 32
    ensures var r := Blink(err, bits);
      && r == [SetPixel(Off), Sleep(PauseBefore)]
              + PulsesFrom(err, bits, 0, 0) + PulsesFrom(err, bits, 0, 1) + PulsesFrom(err, bits, 0, 2)
      && r[|r| - 1] == SetPixel(Off)
      && multiset(r)[Sleep(PauseBetween)] == CodeRepeats - 1
  {
    MultiBitRepeats(err, bits);
    var r2 := PulsesFrom(err, bits, 0, 2);
    PulsesFromLast(err, bits, 0, 2);
    ThreeRepeatGaps(err, bits);
  }

  /** A code of two or more bits is the lead-in and its three repeats. */
  lemma MultiBitRepeats(err: u32, bits: u32)
    requires 2 <= bits <= 32
    ensures Blink(err, bits)
         == [SetPixel(Off), Sleep(PauseBefore)]
            + PulsesFrom(err, bits, 0, 0) + PulsesFrom(err, bits, 0, 1) + PulsesFrom(err, bits, 0, 2)
  {
    var r0, r1, r2 := PulsesFrom(err, bits, 0, 0), PulsesFrom(err, bits, 0, 1), PulsesFrom(err, bits, 0, 2);
    assert RepeatsFrom(err, bits, 3) == [];
    assert RepeatsFrom(err, bits, 2) == r2 by { assert r2 + [] == r2; }
    assert RepeatsFrom(err, bits, 1) == r1 + r2;
    assert RepeatsFrom(err, bits, 0) == r0 + (r1 + r2);
    assert LeadIn(bits) == [SetPixel(Off), Sleep(PauseBefore)];
    Associate(LeadIn(bits), r0, r1, r2);
  }

  lemma Associate(a: seq<Event>, b: seq<Event>, c: seq<Event>, d: seq<Event>)
    ensures a + (b + (c + d)) == a + b + c + d
  {
  }

  /** The lead-in and three repeats carry two gaps between them. */
  lemma ThreeRepeatGaps(err: nat, bits: nat)
    requires bits >= 1
    ensures multiset([SetPixel(Off), Sleep(PauseBefore)]
                     + PulsesFrom(err, bits, 0, 0) + PulsesFrom(err, bits, 0, 1) + PulsesFrom(err, bits, 0, 2))[Sleep(PauseBetween)]
         == CodeRepeats - 1
  {
    PulsesFromGaps(err, bits, 0, 0);
    PulsesFromGaps(err, bits, 0, 1);
    PulsesFromGaps(err, bits, 0, 2);
    CountConcat([SetPixel(Off), Sleep(PauseBefore)], PulsesFrom(err, bits, 0, 0),
                PulsesFrom(err, bits, 0, 1), PulsesFrom(err, bits, 0, 2), Sleep(PauseBetween));
  }

  lemma CountConcat(a: seq<Event>, b: seq<Event>, c: seq<Event>, d: seq<Event>, e: Event)
    ensures multiset(a + b + c + d)[e] == multiset(a)[e] + multiset(b)[e] + multiset(c)[e] + multiset(d)[e]
  {
    assert multiset(a + b + c + d) == multiset(a) + multiset(b) + multiset(c) + multiset(d);
  }

  // ---------------------------------------------------------------------------
  // The codes the firmware uses

  /** Self-test failure of the command rail: a short then a long flash, three times. */
  lemma CommandRailCode()
    ensures Flashes(Blink(1, 2)) == Times([Flash(PixRed, ShortTime), Flash(PixRed, LongTime)], 3)
  {
    BlinkFlashes(1, 2);
    assert CodeFlashes(1, 2) == [Flash(PixRed, ShortTime), Flash(PixRed, LongTime)] by {
      assert Bit(1, 1) == false && Bit(1, 0) == true;
    }
  }

  /** Attempts exhausted: three long flashes, three times. */
  lemma ExhaustedCode()
    ensures Flashes(Blink(7, 3)) == Times([Flash(PixRed, LongTime), Flash(PixRed, LongTime), Flash(PixRed, LongTime)], 3)
  {
    BlinkFlashes(7, 3);
    assert CodeFlashes(7, 3) == [Flash(PixRed, LongTime), Flash(PixRed, LongTime), Flash(PixRed, LongTime)] by {
      assert Bit(7, 2) && Bit(7, 1) && Bit(7, 0);
    }
  }
}
